=== FILE: README.md ===
# unsucknport core in Dafny

A model of the browser extension's reconnecting notification client and its
port monitor, with proofs about both.

- **Notification client.** The background page keeps one WebSocket to a
  notification server (`WebSocketNotificationClient`). It turns each incoming
  frame into a toast, and it reconnects after failures with a capped attempt
  counter. The delay between attempts is meant to grow but is reset on every
  reconnect (see "## Findings").
- **Port monitor.** The content script's `PortMonitor` probes URLs until they
  answer. It backs off between attempts and can be stopped from outside.
- **Popup.** The popup reads a list of custom URLs, asks the background to
  reconnect or switch server, and shows the reconnect counter.

Modules, one per file:

- `Wrappers`: `Option`.
- `JsValues`: the JSON values a frame can parse to, JavaScript truthiness, and `a || b`.
- `Text`: `String.prototype.trim`, `split` and `join` on one separator character. A character is a Unicode scalar value, not a UTF-16 code unit; see "## Left out".
- `Backoff`: the `PortMonitor` constructor defaults and `calculateDelay`.
- `PortMonitor`:
  - `monitorPort` as a pure function over the probe outcomes and an optional external stop;
  - the same loop as a method with its `for`/`break` structure;
  - `stopMonitoring`, `stopAllMonitoring` and the synchronous part of `monitorPorts`;
  - the id of a URL's status element.
- `Payload`: the defaulting of title, message, type and url in `handleIncomingMessage`.
- `Escaping`: the escaping that `injectToasterCode` does before pasting the fields into a script. It includes a reader for single-quoted JavaScript string literals, used to judge that escaping, and a corrected escaping.
- `Connection`: the client as an immutable record. It has one transition per event: socket open, close with a code, error, message, timer fired, request from the popup, suspend. It also has `handleMessage`'s dispatch.
- `ReconnectFix`: the reconnect that keeps the grown delay (see Findings).
- `Popup`: custom-URL parsing, the reconnect button, and the status panel's reconnect counter.

How the world outside the code becomes input:

- The network appears as inputs: `checkPort`'s boolean outcome per attempt, the socket events, and whether `new WebSocket(url)` throws.
- The jitter `Math.random()` is a parameter in `[0, 1)`.
- `JSON.parse`'s outcome is an input.
- Delays are exact reals.

## Model

| member | source | states |
|---|---|---|
| Backoff.NewConfig | js/scripts/default.js:8-11 | for each of the four settings, a missing or zero option takes its default (30 / 1000 / 10000 / 1.5) and a non-zero one is kept, so no field of the config is zero |
| Backoff.NewConfigKeeps | js/scripts/default.js:8-11 | a configuration with no zero setting, passed back as options, is rebuilt unchanged |
| Backoff.NewConfigStable | js/scripts/default.js:8-11 | building from an already built configuration changes nothing |
| Backoff.NoOptionsDefaults | js/scripts/default.js:8-11 | with no options the settings are 30 retries, 1000 ms, 10000 ms and multiplier 1.5 |
| Backoff.BaseDelay | js/scripts/default.js:142-145 | the pre-jitter delay is at most both `maxDelayMs` and `initialDelayMs * multiplier^(attempt-1)`, and equals one of them, so it is their minimum |
| Backoff.CalculateDelay | js/scripts/default.js:141-147 | jitter only adds: the delay lies in `[base, base + maxDelayMs)`, so below twice the cap |
| Backoff.BaseDelayMonotone | js/scripts/default.js:142-145 | with a multiplier of at least 1 the base delay never shrinks from one attempt to the next |
| Backoff.FirstAttemptBase | js/scripts/default.js:142-145 | attempt 1 waits `min(initialDelayMs, maxDelayMs)` before jitter |
| Backoff.DeployedDelays | js/scripts/default.js:359-363 | with the options the script installs (cap 25, multiplier 1) every base delay is 25 ms and every delay lies in [25, 50) |
| Backoff.PowMonotone | js/scripts/default.js:143 | powers of a multiplier of at least 1 grow with the exponent |
| PortMonitor.Attempts | js/scripts/default.js:158-181 | attempts from k on: probes bounded by the retries left, and at most one wait per probe |
| PortMonitor.AttemptsReports | js/scripts/default.js:158-181 | `failed` is reported only after every remaining attempt probed; each `checking` report is for an attempt in range that no stop preceded |
| PortMonitor.MonitorPort | js/scripts/default.js:149-184 | an already watched URL changes nothing; otherwise the loop runs from attempt 1 and leaves the URL's flag false; no probe when `maxRetries < 1`; `failed` only after `maxRetries` probes |
| PortMonitor.MonitorPortLoop | js/scripts/default.js:149-184 | the loop written with its flag poll, two breaks and final clear computes exactly what `MonitorPort` defines |
| PortMonitor.AllFailFrom | js/scripts/default.js:158-181 | when every probe from k to n fails, the loop reports checking/error for each attempt, waits after all but the last, and ends with `failed` |
| PortMonitor.AlwaysFailing | js/scripts/default.js:149-184 | a URL that never answers is probed exactly `maxRetries` times with a wait between attempts, then reported `failed`, and its flag ends false |
| PortMonitor.SucceedsFrom | js/scripts/default.js:158-169 | the first successful probe ends the loop with `success` after the failed attempts before it |
| PortMonitor.SucceedsAt | js/scripts/default.js:149-184 | a URL that first answers at attempt s is probed s times and reported `success`, with no `failed` |
| PortMonitor.StoppedFrom | js/scripts/default.js:158-162 | a stop before attempt s ends the loop silently after s-1 failed attempts |
| PortMonitor.StopDuringAttempt | js/scripts/default.js:149-189 | stopping during the wait after attempt s-1 leaves s-1 probes, no `failed` and no `success` |
| PortMonitor.LateStopFrom | js/scripts/default.js:158-181 | a stop that lands after the last attempt has no effect on the attempts |
| PortMonitor.StopAfterLastAttempt | js/scripts/default.js:149-189 | a stop after the loop has run out changes nothing in its run |
| PortMonitor.StopMonitoring | js/scripts/default.js:186-189 | the URL's flag becomes false, even for a URL never watched, and every other entry is unchanged |
| PortMonitor.StopAllMonitoring | js/scripts/default.js:191-196 | the same URLs stay in the map, all with flag false |
| PortMonitor.RestartAfterStop | js/scripts/default.js:149-155 | after `stopMonitoring(url)` a new `monitorPort(url)` runs from attempt 1 again |
| PortMonitor.StartLoops | js/scripts/default.js:198-203 | only URLs from the list that were not being watched start a loop |
| PortMonitor.StartLoopsFrame | js/scripts/default.js:198-203 | the map gains exactly the listed URLs; entries for other URLs are untouched |
| PortMonitor.StartLoopsActivates | js/scripts/default.js:198-203 | with at least one retry, every listed URL is active after the synchronous start |
| PortMonitor.StartLoopsKeepsActive | js/scripts/default.js:150-153 | a loop already running for a URL stays active |
| PortMonitor.StartLoopsOnePerUrl | js/scripts/default.js:198-203 | with at least one retry, each listed URL not yet watched starts exactly one loop, duplicates in the list included |
| PortMonitor.StartLoopsNoRetries | js/scripts/default.js:155-158 | with `maxRetries < 1` every occurrence of an unwatched URL "starts", and no flag is left set |
| PortMonitor.StartLoopsKeepsInactive | js/scripts/default.js:155-183 | with `maxRetries < 1` a URL that was not active is not active afterwards |
| PortMonitor.Sanitize | js/scripts/default.js:59 | same length, only `[A-Za-z0-9_]`, letters and digits kept in place, every other character replaced by `_` |
| PortMonitor.StatusId | js/scripts/default.js:59 | the id is `status-` followed by the URL with letters and digits kept and every other character replaced by `_`, so after the prefix it uses only `[A-Za-z0-9_]` |
| PortMonitor.SanitizeIdempotent | js/scripts/default.js:59 | sanitising an already sanitised URL changes nothing |
| Payload.Defaults | js/background/websocket-client.js:128-153 | a non-JSON frame becomes a notice with the default title, the raw text and type `info`; `null` yields no notice; otherwise title and type are always truthy and url is a truthy value or `null` |
| Payload.ObjectFields | js/background/websocket-client.js:140-143 | each field of a JSON object is kept exactly when it is truthy, and otherwise falls back to its default or the raw text |
| Payload.NonObjectJsonIsPlainText | js/background/websocket-client.js:131-143 | JSON that is neither an object nor `null` is shown like plain text |
| Escaping.Escape | js/background/websocket-client.js:218-221 | escaping adds one backslash per special character, and every special character in the output sits right after a backslash |
| Escaping.EscapeRoundTrip | js/background/websocket-client.js:218-221 | removing the inserted backslashes gives back the original text |
| Escaping.ChainedReplaceIsOnePass | js/background/websocket-client.js:218-219 | the two chained `replace` calls equal one pass that escapes both quote and backtick |
| Escaping.InjectArgs | js/background/websocket-client.js:218-221 | as written: the arguments exist exactly when each field is falsy or a string; falsy fields become `''`, `'info'` or `null`; a truthy title or message gets a backslash before each `'` and `` ` ``, a truthy type before each `'`; a truthy url is quoted and escaped |
| Escaping.InjectArgsUnescape | js/background/websocket-client.js:218-219 | the escaped title and message unescape to the notice's own text |
| Escaping.AsWrittenSoundWithoutBackslash | js/background/websocket-client.js:218-221 | as written, text without backslashes or line breaks reads back exactly from the quoted literal |
| Escaping.BackslashBreaksOut | js/background/websocket-client.js:218-219 | as written, the message `\'` ends the literal early: the literal reads `\` and the rest of the script starts with `'` |
| Escaping.LineBreakUnparsable | js/background/websocket-client.js:218-219 | as written, any message without a backslash that holds a line feed or carriage return gives a literal that cannot be read, whatever script follows |
| Escaping.LineFeedExample | js/background/websocket-client.js:218-219 | as written, the message `a`, line feed, `b` gives an unreadable literal |
| Escaping.LiteralRoundTrip | js/background/websocket-client.js:218-222 | with backslash and line breaks escaped too, every text reads back exactly and the script after the literal is left intact |
| Escaping.SafeInjectArgs | js/background/websocket-client.js:218-222 | corrected arguments: each string field reads back as itself from its literal |
| Connection.ScheduleReconnect | js/background/websocket-client.js:378-392 | no-op while a timer is pending or 10 attempts are used; otherwise one more attempt, a timer for the current delay, and the delay grown by 1.5 up to 30000; keeps the client's bounds |
| Connection.ClearReconnectInterval | js/background/websocket-client.js:394-401 | no timer pending and the delay back at 5000, nothing else changed |
| Connection.Connect | js/background/websocket-client.js:77-125 | a new socket handle, or a scheduled reconnect when the constructor throws |
| Connection.Reconnect | js/background/websocket-client.js:403-411 | URL and connection flag unchanged; on success, a socket, no timer, delay 5000 and the attempt count kept; on failure, one more attempt armed for 5000 ms unless the cap is reached |
| Connection.UpdateServerUrl | js/background/websocket-client.js:413-425 | an empty or identical URL changes nothing; a new one is stored and reconnected to |
| Connection.Disconnect | js/background/websocket-client.js:427-437 | no timer, no socket, not connected, counters reset, URL and notification count kept |
| Connection.OnOpen | js/background/websocket-client.js:88-100 | connected, attempts 0, no timer, delay 5000, and one success notice naming the server |
| Connection.OnClose | js/background/websocket-client.js:107-114 | not connected; a reconnect is scheduled exactly when the close code is not 1000 |
| Connection.OnError | js/background/websocket-client.js:116-120 | not connected, and a reconnect is scheduled |
| Connection.OnTimer | js/background/websocket-client.js:386-388 | a firing timer runs `reconnect()`, which undoes the delay growth while keeping the attempt count |
| Connection.Show | js/background/websocket-client.js:190-214 | the notice is passed on unchanged and the counter rises by exactly one, nothing else changes |
| Connection.OnMessage | js/background/websocket-client.js:128-152 | at most one notice, none exactly for a `null` payload; the notice shown is the defaulted one; the notification count rises by 2 per notice shown (lines 148 and 213) |
| Connection.SendTestMessage | js/background/websocket-client.js:155-188 | one notice in every case; the frame is sent exactly when connected with a socket and `send` does not throw; the notice is "Test gesendet" (info) after a send, "Fehler" (error) when `send` throws and "Nicht verbunden" (warning) without a connection |
| Connection.HandleMessage | js/background/websocket-client.js:45-75 | a status reply exactly for `getWebSocketStatus`, carrying the client's fields and the cap 10; `Unknown action` exactly for other actions; each known action runs its operation and only the test message shows anything |
| Connection.Start | js/background/websocket-client.js:7-34 | the default URL, not connected, count 0, and either a socket or a first reconnect armed for 5000 ms |
| Connection.Step | js/background/websocket-client.js:36-43 | loaded settings replace the URL and nothing else, so an open socket stays on the old server; suspension is exactly `disconnect()` |
| Connection.SuspendedDisconnects | js/background/websocket-client.js:444-446 | after the background page is suspended there is no timer, no socket, no connection, no attempt counted and the delay is 5000; URL and count are kept |
| Connection.RunValid | js/background/websocket-client.js:378-401 | over any sequence of events the delay and any pending timer stay within [5000, 30000] and at most 10 attempts are counted |
| Connection.RunCountGrows | js/background/websocket-client.js:148 | the notification counter never goes down |
| Connection.ReconnectDelayNeverGrows | js/background/websocket-client.js:386-401 | as written, from start-up on, every armed reconnect timer waits exactly 5000 ms |
| Connection.FailCyclesCap | js/background/websocket-client.js:378-392 | repeated abnormal closes count one attempt each up to 10, then leave the client down with no timer |
| Connection.GivesUpAtCap | js/background/websocket-client.js:379-381 | once 10 attempts are counted with no timer pending, no closing, error, message or timer event arms a timer again |
| ReconnectFix.Reconnect | js/background/websocket-client.js:403-411 | corrected: the timer is cancelled and the grown delay and attempts are kept |
| ReconnectFix.UpdateServerUrl | js/background/websocket-client.js:413-425 | corrected: an empty or identical URL changes nothing; a new one is stored, and when the socket is built the grown delay and the attempts are kept |
| ReconnectFix.ArmedDelayGrows | js/background/websocket-client.js:378-392 | corrected: after the k-th consecutive scheduling the timer waits 5000 * 1.5^(k-1) ms, capped at 30000 |
| ReconnectFix.ExpectedDelayBounds | js/background/websocket-client.js:391 | the corrected delays rise with the attempt count and stay within [5000, 30000] |
| ReconnectFix.SecondWaitIsLonger | js/background/websocket-client.js:386-401 | after two abnormal closes the second timer waits 7500 ms when corrected and 5000 ms as written |
| Text.Trim | js/ui_scripts/default.js:183 | the result has no whitespace at either end, and is empty exactly for all-whitespace text |
| Text.TrimIsInfix | js/ui_scripts/default.js:183 | the result is a piece of the text with only whitespace before and after it |
| Text.TrimIdempotent | js/ui_scripts/default.js:194 | trimming an already trimmed line changes nothing |
| Text.Split | js/ui_scripts/default.js:193 | one piece more than there are separators, and no piece contains the separator |
| Text.JoinSplit | js/ui_scripts/default.js:193 | joining the pieces restores the text |
| Text.SplitJoin | js/ui_scripts/default.js:193 | splitting separator-free pieces joined together gives the pieces back |
| Popup.ParseCustomUrls | js/ui_scripts/default.js:182-195 | the field is refused exactly when it is all whitespace |
| Popup.TrimEach | js/ui_scripts/default.js:194 | one result per line, each the trimmed line at the same position |
| Popup.NonEmpty | js/ui_scripts/default.js:195 | the kept lines are exactly the non-empty ones, never more than before |
| Popup.NonEmptyAppend | js/ui_scripts/default.js:195 | filtering two lists joined end to end is filtering each, in the same order |
| Popup.TrimEachAppend | js/ui_scripts/default.js:194 | trimming two lists joined end to end is trimming each, in the same order |
| Popup.LinesWithUrl | js/ui_scripts/default.js:193-195 | the numbers of exactly the lines with something besides whitespace, strictly increasing |
| Popup.ParseInLineOrder | js/ui_scripts/default.js:182-195 | for any accepted text, the i-th URL is the i-th non-blank line of the trimmed text, trimmed: no line dropped, added or reordered |
| Popup.ParsedUrlsClean | js/ui_scripts/default.js:193-195 | every URL read is non-empty, trimmed and one line |
| Popup.ParsedUrlsCount | js/ui_scripts/default.js:182-195 | an accepted field yields at least one URL and at most one per line |
| Popup.ParseJoined | js/ui_scripts/default.js:182-195 | URLs written one per line read back exactly, in order |
| Popup.ReconnectRequest | js/ui_scripts/default.js:96-115 | a trimmed non-empty URL other than the one shown asks to switch server; anything else asks for a plain reconnect |
| Popup.ReconnectButton | js/ui_scripts/default.js:96-115 | the button always reconnects the client, to the trimmed input when there is one and to the current URL otherwise, and the reply is success |
| Popup.ReconnectStatus | js/ui_scripts/default.js:103-113 | a status line appears exactly on a success reply and names a server switch or a plain reconnect |
| Popup.UpdateWebSocketStatus | js/ui_scripts/default.js:71-94 | no change without a reply; `Verbunden` exactly for a connected status; the counter shows `attempts/max` exactly when disconnected with attempts above 0 |
| Popup.StatusShowsAttempts | js/ui_scripts/default.js:71-94 | asked of a client, the counter shows exactly while it is disconnected with attempts counted, and shows the client's own numbers |
| Popup.ShownAttemptsWithinCap | js/ui_scripts/default.js:80-85 | whatever happened since start-up, a shown counter reads between 1/10 and 10/10 |

## Left out

- The page itself is not modelled: DOM and CSS work, the status panel's markup, the toaster script's rendering, `chrome.*` messaging and storage, and `console` output.
- `checkPort`'s `fetch` and `Image` fallback are collapsed to one boolean per attempt. The 5-second probe timeouts are not modelled.
- `successCodes` has no effect in the code, so it is not modelled.
- `Math.random()` becomes a jitter parameter.
- Floating-point rounding is not modelled; delays are exact reals.
- The client's socket, timer and popup messages are modelled as an arbitrary sequence of events, one at a time.
- Monitor loops are modelled one at a time, each with a fixed `maxRetries` and at most one stop point. Two concurrent behaviours are left out: a stop followed by a restart during a backoff wait, which leaves two loops running on one URL; and the popup assigning `window.portMonitor.maxRetries` (js/ui_scripts/default.js:205) while a loop runs, which that loop sees because js/scripts/default.js:158 re-reads `this.maxRetries` on every iteration.
- PortMonitor.Sanitize: a character outside the Basic Multilingual Plane is one character here but two UTF-16 code units in JavaScript, so the model gives one `_` where `/[^a-zA-Z0-9]/g` gives two. Text positions and lengths elsewhere count characters in the same way.
- A stop that lands inside an attempt is modelled as landing before the next one.
- `loadSettings` is modelled as an event that sets the URL. Persisting settings is a call into storage and is not modelled.
- The `background` argument of `injectToasterCode` (line 222) is not modelled. `showNotification` is never given one, so it is always `null`.
- A request without `url` is modelled as the empty URL, which `updateServerUrl` treats as falsy just like `undefined`.
- The popup's monitoring buttons, settings form and `executeInCurrentTab` only build script text for the page, so they are not modelled.
- Backoff.CalculateDelay: defined only for attempts of at least 1, the only ones `monitorPort` passes.
- Escaping.AsWrittenSoundWithoutBackslash: the literal reader knows the escapes the escaping functions produce. It does not know JavaScript's other escapes (`\x`, `\u`, octal).
- Connection.Reconnect: the closing of the previous socket is not an effect of the call. It arrives later as a `Closed` event, the same as any other close.
- The client follows the code, which resets the reconnect delay in `reconnect()` through `clearReconnectInterval` (js/background/websocket-client.js:400, 404). The `// Exponential backoff` step at js/background/websocket-client.js:390-391 therefore never takes effect. `ReconnectFix` models a reconnect that keeps the grown delay, as that step intends.

## Findings

| source | as written | input that shows it | evidently intended | confidence | as-written member | corrected member |
|---|---|---|---|---|---|---|
| js/background/websocket-client.js:386-401 | the timer callback runs `reconnect()`, whose `clearReconnectInterval()` resets the delay to 5000, so the growth at line 391 is undone before any later scheduling uses it | the socket closes with code 1006, the timer fires, the new socket closes with 1006: the second timer is armed for 5000 ms | a reconnect keeps the grown delay, so the k-th consecutive timer waits 5000·1.5^(k-1) ms, up to 30000 | high (not executed) | Connection.ReconnectDelayNeverGrows | ReconnectFix.ArmedDelayGrows |
| js/background/websocket-client.js:218-221 | only `'` and `` ` `` are escaped, not `\` or line breaks, before the text goes into a single-quoted literal | a message `\'` becomes `\\'`, which ends the literal after one backslash and lets the rest run as script; a message `a`, line feed, `b` (or any backslash-free message with a line break) gives a literal that cannot be parsed | any notification text reads back unchanged from the injected literal | high (not executed) | Escaping.BackslashBreaksOut | Escaping.SafeInjectArgs |

=== FILE: backoff.dfy ===
/**
 * The port monitor's backoff policy: the constructor's option defaults and
 * `calculateDelay`, a capped exponential base plus a random jitter. The
 * random draw is a parameter in [0, 1); delays are exact reals.
 */
module Backoff {
  import opened Wrappers

  /** The tuning a `PortMonitor` instance holds. */
  datatype MonitorConfig = MonitorConfig(
    maxRetries: int,
    initialDelayMs: real,
    maxDelayMs: real,
    backoffMultiplier: real)

  /** The options object passed to the constructor; `None` is an absent key. */
  datatype MonitorOptions = MonitorOptions(
    maxRetries: Option<int>,
    initialDelayMs: Option<real>,
    maxDelayMs: Option<real>,
    backoffMultiplier: Option<real>)

  const DefaultMaxRetries: int := 30
  const DefaultInitialDelayMs: real := 1000.0
  const DefaultMaxDelayMs: real := 10000.0
  const DefaultBackoffMultiplier: real := 1.5

  /** `options.x || default` on a numeric option: absent and 0 are falsy. */
  function OrInt(o: Option<int>, default: int): int
  {
    if o.Some? && o.value != 0 then o.value else default
  }

  function OrReal(o: Option<real>, default: real): real
  {
    if o.Some? && o.value != 0.0 then o.value else default
  }

  /** The constructor: every option that is absent or zero takes its default. */
  function NewConfig(o: MonitorOptions): (c: MonitorConfig)
    ensures c.maxRetries != 0 && c.initialDelayMs != 0.0
    ensures c.maxDelayMs != 0.0 && c.backoffMultiplier != 0.0
    ensures o.maxRetries.Some? && o.maxRetries.value != 0 ==> c.maxRetries == o.maxRetries.value
    ensures o.maxRetries.None? || o.maxRetries.value == 0 ==> c.maxRetries == 30
    ensures o.initialDelayMs.Some? && o.initialDelayMs.value != 0.0 ==> c.initialDelayMs == o.initialDelayMs.value
    ensures o.initialDelayMs.None? || o.initialDelayMs.value == 0.0 ==> c.initialDelayMs == 1000.0
    ensures o.maxDelayMs.Some? && o.maxDelayMs.value != 0.0 ==> c.maxDelayMs == o.maxDelayMs.value
    ensures o.maxDelayMs.None? || o.maxDelayMs.value == 0.0 ==> c.maxDelayMs == 10000.0
    ensures o.backoffMultiplier.Some? && o.backoffMultiplier.value != 0.0 ==> c.backoffMultiplier == o.backoffMultiplier.value
    ensures o.backoffMultiplier.None? || o.backoffMultiplier.value == 0.0 ==> c.backoffMultiplier == 1.5
  {
    MonitorConfig(
      OrInt(o.maxRetries, DefaultMaxRetries),
      OrReal(o.initialDelayMs, DefaultInitialDelayMs),
      OrReal(o.maxDelayMs, DefaultMaxDelayMs),
      OrReal(o.backoffMultiplier, DefaultBackoffMultiplier))
  }

  /** The options a configuration would be written back as. */
  function AsOptions(c: MonitorConfig): MonitorOptions
  {
    MonitorOptions(Some(c.maxRetries), Some(c.initialDelayMs), Some(c.maxDelayMs), Some(c.backoffMultiplier))
  }

  /** A configuration with no zero setting survives being passed back as options. */
  lemma NewConfigKeeps(c: MonitorConfig)
    requires c.maxRetries != 0 && c.initialDelayMs != 0.0
    requires c.maxDelayMs != 0.0 && c.backoffMultiplier != 0.0
    ensures NewConfig(AsOptions(c)) == c
  {
  }

  /** Building from built settings changes nothing: every built setting is non-zero. */
  lemma NewConfigStable(o: MonitorOptions)
    ensures NewConfig(AsOptions(NewConfig(o))) == NewConfig(o)
  {
    NewConfigKeeps(NewConfig(o));
  }

  /** With no options at all every setting is its default. */
  lemma NoOptionsDefaults()
    ensures NewConfig(MonitorOptions(None, None, None, None)) == MonitorConfig(30, 1000.0, 10000.0, 1.5)
  {
  }

  /** The options the content script installs its monitor with. */
  const DeployedOptions: MonitorOptions :=
    MonitorOptions(Some(250), Some(5000.0), Some(25.0), Some(1.0))

  function Pow(b: real, n: nat): real
  {
    if n == 0 then 1.0 else b * Pow(b, n - 1)
  }

  function Min(a: real, b: real): real
  {
    if a <= b then a else b
  }

  /** The delay before jitter: `min(initialDelayMs * multiplier^(attempt-1), maxDelayMs)`. */
  function BaseDelay(c: MonitorConfig, attempt: nat): (d: real)
    requires attempt >= 1
    ensures d <= c.maxDelayMs
    ensures d <= c.initialDelayMs * Pow(c.backoffMultiplier, attempt - 1)
    ensures d == c.maxDelayMs || d == c.initialDelayMs * Pow(c.backoffMultiplier, attempt - 1)
  {
    Min(c.initialDelayMs * Pow(c.backoffMultiplier, attempt - 1), c.maxDelayMs)
  }

  /**
   * `calculateDelay(attempt)`: the base plus `jitter * maxDelayMs`, where
   * `jitter` is the value `Math.random()` returned.
   */
  function CalculateDelay(c: MonitorConfig, attempt: nat, jitter: real): (d: real)
    requires attempt >= 1
    requires 0.0 <= jitter < 1.0
    ensures c.maxDelayMs >= 0.0 ==> BaseDelay(c, attempt) <= d
    ensures c.maxDelayMs > 0.0 ==> d < BaseDelay(c, attempt) + c.maxDelayMs
    ensures c.maxDelayMs > 0.0 ==> d < 2.0 * c.maxDelayMs
  {
    BaseDelay(c, attempt) + jitter * c.maxDelayMs
  }

  lemma {:induction false} PowAtLeastOne(b: real, n: nat)
    requires b >= 1.0
    ensures Pow(b, n) >= 1.0
  {
    if n > 0 {
      PowAtLeastOne(b, n - 1);
    }
  }

  /** For a base of at least one, powers grow with the exponent. */
  lemma {:induction false} PowMonotone(b: real, i: nat, j: nat)
    requires b >= 1.0
    requires i <= j
    ensures Pow(b, i) <= Pow(b, j)
    decreases j
  {
    if i < j {
      PowMonotone(b, i, j - 1);
      PowAtLeastOne(b, j - 1);
      assert Pow(b, j) == b * Pow(b, j - 1);
      assert b * Pow(b, j - 1) >= Pow(b, j - 1);
    }
  }

  /** For a multiplier of at least one the base delay never shrinks from one attempt to a later one. */
  lemma BaseDelayMonotone(c: MonitorConfig, a: nat, b: nat)
    requires c.backoffMultiplier >= 1.0 && c.initialDelayMs >= 0.0
    requires 1 <= a <= b
    ensures BaseDelay(c, a) <= BaseDelay(c, b)
  {
    PowMonotone(c.backoffMultiplier, a - 1, b - 1);
    MulMonotone(c.initialDelayMs, Pow(c.backoffMultiplier, a - 1), Pow(c.backoffMultiplier, b - 1));
  }

  lemma MulMonotone(x: real, y: real, z: real)
    requires x >= 0.0 && y <= z
    ensures x * y <= x * z
  {
  }

  /** The first attempt waits the initial delay (capped) plus jitter. */
  lemma FirstAttemptBase(c: MonitorConfig)
    ensures BaseDelay(c, 1) == Min(c.initialDelayMs, c.maxDelayMs)
  {
  }

  /**
   * With the deployed options (initial 5000, cap 25, multiplier 1) the base
   * is the cap itself, so every wait lies in [25, 50) milliseconds.
   */
  lemma {:induction false} DeployedDelays(attempt: nat, jitter: real)
    requires attempt >= 1 && 0.0 <= jitter < 1.0
    ensures BaseDelay(NewConfig(DeployedOptions), attempt) == 25.0
    ensures 25.0 <= CalculateDelay(NewConfig(DeployedOptions), attempt, jitter) < 50.0
  {
    var c := NewConfig(DeployedOptions);
    assert c == MonitorConfig(250, 5000.0, 25.0, 1.0);
    PowOne(attempt - 1);
  }

  lemma {:induction false} PowOne(n: nat)
    ensures Pow(1.0, n) == 1.0
  {
    if n > 0 {
      PowOne(n - 1);
    }
  }
}

=== FILE: connection.dfy ===
/**
 * The background page's `WebSocketNotificationClient` as an immutable record
 * with one transition function per event. The socket and the timer are
 * replaced by input events: the socket opening, closing with a code or
 * erroring, the reconnect timer firing, and whether `new WebSocket(url)`
 * threw (`constructs == false`).
 */
module Connection {
  import opened Wrappers
  import opened JsValues
  import opened Payload
  import Backoff

  const InitialReconnectDelay: real := 5000.0
  const MaxReconnectDelay: real := 30000.0
  const BackoffFactor: real := 1.5
  const MaxReconnectAttempts: nat := 10
  const DefaultServerUrl: string := "ws://localhost:25566"
  /** Close code 1000, normal closure (section 7.4.1 of RFC 6455). */
  const NormalClosure: int := 1000

  /** The reconnect timer: none pending, or one armed with the delay it was set for. */
  datatype Timer = NoTimer | Armed(delay: real)

  /** The client's fields; `hasSocket` says whether `this.websocket` holds a handle. */
  datatype Client = Client(
    serverUrl: string,
    hasSocket: bool,
    isConnected: bool,
    timer: Timer,
    reconnectDelay: real,
    reconnectAttempts: nat,
    notificationCount: nat)

  /** What one transition produces: the next client, the notifications shown, and whether a test frame was sent. */
  datatype Effect = Effect(client: Client, shown: seq<Notice>, transmitted: bool)

  /** The fields the constructor sets before `init()`. */
  const Fresh: Client := Client(DefaultServerUrl, false, false, NoTimer, InitialReconnectDelay, 0, 0)

  /** The bounds every reachable client keeps. */
  predicate Valid(c: Client)
  {
    && InitialReconnectDelay <= c.reconnectDelay <= MaxReconnectDelay
    && c.reconnectAttempts <= MaxReconnectAttempts
    && (c.timer.Armed? ==> InitialReconnectDelay <= c.timer.delay <= MaxReconnectDelay)
  }

  /**
   * `scheduleReconnect()`: nothing while a timer is pending or the attempts
   * are used up; otherwise one more attempt, a timer armed with the current
   * delay, and the delay grown by half, capped at 30 seconds.
   */
  function ScheduleReconnect(c: Client): (r: Client)
    ensures c.timer.Armed? || c.reconnectAttempts >= MaxReconnectAttempts ==> r == c
    ensures c.timer.NoTimer? && c.reconnectAttempts < MaxReconnectAttempts ==>
              && r.reconnectAttempts == c.reconnectAttempts + 1
              && r.timer == Armed(c.reconnectDelay)
              && r.reconnectDelay == Backoff.Min(c.reconnectDelay * BackoffFactor, MaxReconnectDelay)
              && r.(timer := c.timer, reconnectAttempts := c.reconnectAttempts, reconnectDelay := c.reconnectDelay) == c
    ensures Valid(c) ==> Valid(r)
  {
    if c.timer.Armed? || c.reconnectAttempts >= MaxReconnectAttempts then c
    else c.(reconnectAttempts := c.reconnectAttempts + 1,
            timer := Armed(c.reconnectDelay),
            reconnectDelay := Backoff.Min(c.reconnectDelay * BackoffFactor, MaxReconnectDelay))
  }

  /** `clearReconnectInterval()`: no timer pending and the delay back at 5 seconds. */
  function ClearReconnectInterval(c: Client): (r: Client)
    ensures r.timer.NoTimer? && r.reconnectDelay == InitialReconnectDelay
    ensures r.(timer := c.timer, reconnectDelay := c.reconnectDelay) == c
  {
    c.(timer := NoTimer, reconnectDelay := InitialReconnectDelay)
  }

  /**
   * `connectToWebSocket()`: a new socket handle, or, when the constructor
   * throws, a scheduled reconnect. The old handle (if any) is closed, which
   * shows up later as a `Closed` event.
   */
  function Connect(c: Client, constructs: bool): (r: Client)
    ensures constructs ==> r == c.(hasSocket := true)
    ensures !constructs ==> r == ScheduleReconnect(c)
  {
    if constructs then c.(hasSocket := true) else ScheduleReconnect(c)
  }

  /**
   * `reconnect()`: clear the timer (which also resets the delay), then
   * connect. The attempt counter is kept; `isConnected` is not touched.
   */
  function Reconnect(c: Client, constructs: bool): (r: Client)
    ensures r.serverUrl == c.serverUrl && r.isConnected == c.isConnected
    ensures r.notificationCount == c.notificationCount
    ensures constructs ==> && r.hasSocket && r.timer.NoTimer?
                           && r.reconnectDelay == InitialReconnectDelay
                           && r.reconnectAttempts == c.reconnectAttempts
    ensures !constructs && c.reconnectAttempts < MaxReconnectAttempts ==>
              && r.timer == Armed(InitialReconnectDelay)
              && r.reconnectAttempts == c.reconnectAttempts + 1
              && r.reconnectDelay == InitialReconnectDelay * BackoffFactor
    ensures !constructs && c.reconnectAttempts >= MaxReconnectAttempts ==>
              r.timer.NoTimer? && r.reconnectAttempts == c.reconnectAttempts
  {
    Connect(ClearReconnectInterval(c), constructs)
  }

  /** `updateServerUrl(newUrl)`: only a non-empty, different URL is stored and reconnected to. */
  function UpdateServerUrl(c: Client, newUrl: string, constructs: bool): (r: Client)
    ensures newUrl == "" || newUrl == c.serverUrl ==> r == c
    ensures newUrl != "" && newUrl != c.serverUrl ==>
              r.serverUrl == newUrl && r == Reconnect(c.(serverUrl := newUrl), constructs)
  {
    if newUrl != "" && newUrl != c.serverUrl then Reconnect(c.(serverUrl := newUrl), constructs)
    else c
  }

  /** `disconnect()`: no timer, no socket, not connected, counters reset. */
  function Disconnect(c: Client): (r: Client)
    ensures r.timer.NoTimer? && !r.hasSocket && !r.isConnected
    ensures r.reconnectAttempts == 0 && r.reconnectDelay == InitialReconnectDelay
    ensures r.serverUrl == c.serverUrl && r.notificationCount == c.notificationCount
  {
    var cleared := ClearReconnectInterval(c);
    cleared.(hasSocket := false, isConnected := false, reconnectAttempts := 0)
  }

  /** `showNotification(...)`: the notice is passed on and counted. */
  function Show(c: Client, n: Notice): (e: Effect)
    ensures e.client == c.(notificationCount := c.notificationCount + 1)
    ensures e.shown == [n] && !e.transmitted
  {
    Effect(c.(notificationCount := c.notificationCount + 1), [n], false)
  }

  /** A notice built from string literals, with no link. */
  function PlainNotice(title: string, message: string, kind: string): Notice
  {
    Notice(JStr(title), JStr(message), JStr(kind), JNull)
  }

  /** `onopen`: connected, attempts back to 0, timer cleared, and a success notice. */
  function OnOpen(c: Client): (e: Effect)
    ensures e.client.isConnected && e.client.reconnectAttempts == 0
    ensures e.client.timer.NoTimer? && e.client.reconnectDelay == InitialReconnectDelay
    ensures e.client.serverUrl == c.serverUrl && e.client.hasSocket == c.hasSocket
    ensures e.shown == [PlainNotice("WebSocket Verbunden", "Erfolgreich mit " + c.serverUrl + " verbunden", "success")]
    ensures e.client.notificationCount == c.notificationCount + 1
  {
    var reset := ClearReconnectInterval(c.(isConnected := true, reconnectAttempts := 0));
    Show(reset, PlainNotice("WebSocket Verbunden", "Erfolgreich mit " + c.serverUrl + " verbunden", "success"))
  }

  /** `onclose`: not connected; a reconnect is scheduled unless the code is 1000. */
  function OnClose(c: Client, code: int): (r: Client)
    ensures !r.isConnected
    ensures code == NormalClosure ==> r == c.(isConnected := false)
    ensures code != NormalClosure ==> r == ScheduleReconnect(c.(isConnected := false))
  {
    var closed := c.(isConnected := false);
    if code != NormalClosure then ScheduleReconnect(closed) else closed
  }

  /** `onerror`: not connected, and a reconnect is scheduled. */
  function OnError(c: Client): (r: Client)
    ensures !r.isConnected
    ensures r == ScheduleReconnect(c.(isConnected := false))
  {
    ScheduleReconnect(c.(isConnected := false))
  }

  /**
   * The pending timer fires and runs `reconnect()`. With no timer pending
   * there is nothing to fire.
   */
  function OnTimer(c: Client, constructs: bool): (r: Client)
    ensures c.timer.NoTimer? ==> r == c
    ensures c.timer.Armed? ==> r == Reconnect(c, constructs)
    ensures c.timer.Armed? && constructs ==>
              r.reconnectDelay == InitialReconnectDelay && r.reconnectAttempts == c.reconnectAttempts
  {
    if c.timer.Armed? then Reconnect(c, constructs) else c
  }

  /**
   * `onmessage` / `handleIncomingMessage`: the defaulted notice is shown.
   * The counter goes up twice, once in `showNotification` and once after it.
   */
  function OnMessage(c: Client, raw: string, parsed: Parsed): (e: Effect)
    ensures |e.shown| <= 1 && !e.transmitted
    ensures |e.shown| == 1 <==> parsed != Json(JNull)
    ensures e.client == c.(notificationCount := c.notificationCount + 2 * |e.shown|)
    ensures parsed.NotJson? ==> e.shown == [Notice(JStr(DefaultTitle), JStr(raw), JStr(DefaultKind), JNull)]
    ensures parsed != Json(JNull) ==> e.shown == [Defaults(raw, parsed).value]
  {
    match Defaults(raw, parsed)
    case None => Effect(c, [], false)
    case Some(n) =>
      var shown := Show(c, n);
      shown.(client := shown.client.(notificationCount := shown.client.notificationCount + 1))
  }

  /**
   * `sendTestMessage()`: when connected with a socket, the test frame is
   * handed to `send`, which may throw (`sendOk == false`); one notice is
   * shown in every case.
   */
  function SendTestMessage(c: Client, sendOk: bool): (e: Effect)
    ensures e.client == c.(notificationCount := c.notificationCount + 1)
    ensures |e.shown| == 1
    ensures e.transmitted <==> c.isConnected && c.hasSocket && sendOk
    ensures e.transmitted ==>
              e.shown == [PlainNotice("Test gesendet", "Test-Nachricht an WebSocket Server gesendet", "info")]
    ensures !(c.isConnected && c.hasSocket) ==>
              e.shown == [PlainNotice("Nicht verbunden", "Keine aktive WebSocket-Verbindung", "warning")]
    ensures c.isConnected && c.hasSocket && !sendOk ==>
              e.shown == [PlainNotice("Fehler", "Test-Nachricht konnte nicht gesendet werden", "error")]
  {
    if c.isConnected && c.hasSocket then
      if sendOk then
        Show(c, PlainNotice("Test gesendet", "Test-Nachricht an WebSocket Server gesendet", "info")).(transmitted := true)
      else Show(c, PlainNotice("Fehler", "Test-Nachricht konnte nicht gesendet werden", "error"))
    else Show(c, PlainNotice("Nicht verbunden", "Keine aktive WebSocket-Verbindung", "warning"))
  }

  /** A runtime message to the background page; an absent `url` is the empty text. */
  datatype Request = Request(action: string, url: string)

  /** The outcomes of the calls into the browser that a request may make. */
  datatype Env = Env(constructs: bool, sendOk: bool)

  datatype Response =
    | Status(connected: bool, serverUrl: string, notificationCount: nat,
             reconnectAttempts: nat, maxReconnectAttempts: nat)
    | Done
    | UnknownAction

  datatype Reply = Reply(effect: Effect, response: Response)

  const GetStatusAction: string := "getWebSocketStatus"
  const ReconnectAction: string := "reconnectWebSocket"
  const UpdateUrlAction: string := "updateServerUrl"
  const SendTestAction: string := "sendTestMessage"

  predicate KnownAction(action: string)
  {
    action in {GetStatusAction, ReconnectAction, UpdateUrlAction, SendTestAction}
  }

  /** `handleMessage`: the action switch and the response each case sends. */
  function HandleMessage(c: Client, req: Request, env: Env): (r: Reply)
    ensures r.response.Status? <==> req.action == GetStatusAction
    ensures r.response.UnknownAction? <==> !KnownAction(req.action)
    ensures r.response.Status? ==>
              r.response == Status(c.isConnected, c.serverUrl, c.notificationCount,
                                   c.reconnectAttempts, MaxReconnectAttempts)
    ensures req.action != SendTestAction ==> r.effect.shown == [] && !r.effect.transmitted
    ensures req.action == GetStatusAction || !KnownAction(req.action) ==> r.effect.client == c
    ensures req.action == ReconnectAction ==> r.effect.client == Reconnect(c, env.constructs)
    ensures req.action == UpdateUrlAction ==> r.effect.client == UpdateServerUrl(c, req.url, env.constructs)
    ensures req.action == SendTestAction ==> r.effect == SendTestMessage(c, env.sendOk)
  {
    if req.action == GetStatusAction then
      Reply(Effect(c, [], false),
            Status(c.isConnected, c.serverUrl, c.notificationCount, c.reconnectAttempts, MaxReconnectAttempts))
    else if req.action == ReconnectAction then
      Reply(Effect(Reconnect(c, env.constructs), [], false), Done)
    else if req.action == UpdateUrlAction then
      Reply(Effect(UpdateServerUrl(c, req.url, env.constructs), [], false), Done)
    else if req.action == SendTestAction then
      Reply(SendTestMessage(c, env.sendOk), Done)
    else Reply(Effect(c, [], false), UnknownAction)
  }

  /** Everything that can happen to the client after start-up. */
  datatype Event =
    | SettingsLoaded(url: string)
    | Opened
    | Closed(code: int)
    | SocketError
    | Received(raw: string, parsed: Parsed)
    | TimerFired(constructs: bool)
    | Requested(request: Request, env: Env)
    | Suspended

  /** The constructor and `init()`: the fresh fields, then a first connect. */
  function Start(constructs: bool): (c: Client)
    ensures c.serverUrl == DefaultServerUrl && !c.isConnected && c.notificationCount == 0
    ensures constructs ==> c.hasSocket && c.timer.NoTimer? && c.reconnectAttempts == 0
    ensures !constructs ==> c.timer == Armed(InitialReconnectDelay) && c.reconnectAttempts == 1
  {
    Connect(Fresh, constructs)
  }

  /**
   * One event. Loaded settings replace the URL without reconnecting, so an
   * open socket stays on the old server; suspension disconnects.
   */
  function Step(c: Client, e: Event): (r: Client)
    ensures e.SettingsLoaded? ==> r == c.(serverUrl := e.url)
    ensures e.Suspended? ==> r == Disconnect(c)
    ensures e.SettingsLoaded? ==> r.hasSocket == c.hasSocket && r.isConnected == c.isConnected && r.timer == c.timer
  {
    match e
    case SettingsLoaded(url) => c.(serverUrl := url)
    case Opened => OnOpen(c).client
    case Closed(code) => OnClose(c, code)
    case SocketError => OnError(c)
    case Received(raw, parsed) => OnMessage(c, raw, parsed).client
    case TimerFired(constructs) => OnTimer(c, constructs)
    case Requested(req, env) => HandleMessage(c, req, env).effect.client
    case Suspended => Disconnect(c)
  }

  /** The `onSuspend` listener: whatever the state, suspension leaves nothing pending. */
  lemma SuspendedDisconnects(c: Client)
    ensures var r := Step(c, Suspended);
            && r.timer.NoTimer? && !r.hasSocket && !r.isConnected
            && r.reconnectAttempts == 0 && r.reconnectDelay == InitialReconnectDelay
            && r.serverUrl == c.serverUrl && r.notificationCount == c.notificationCount
  {
  }

  function Run(c: Client, es: seq<Event>): Client
    decreases |es|
  {
    if |es| == 0 then c else Run(Step(c, es[0]), es[1..])
  }

  /** The URL a request leaves the client pointed at, if it reconnects. */
  function RequestUrl(c: Client, req: Request): string
  {
    if req.action == UpdateUrlAction then req.url else c.serverUrl
  }

  /** A request either changes nothing but the notification count, or is a reconnect, possibly to a new URL. */
  lemma RequestOutcome(c: Client, req: Request, env: Env)
    ensures var r := HandleMessage(c, req, env).effect.client;
            || r == c.(notificationCount := r.notificationCount)
            || r == Reconnect(c.(serverUrl := RequestUrl(c, req)), env.constructs)
    ensures req.action != ReconnectAction && req.action != UpdateUrlAction ==>
              var r := HandleMessage(c, req, env).effect.client;
              r == c.(notificationCount := r.notificationCount)
  {
    var r := HandleMessage(c, req, env).effect.client;
    if req.action == ReconnectAction {
      assert c.(serverUrl := c.serverUrl) == c;
    } else if req.action == UpdateUrlAction {
      if req.url == "" || req.url == c.serverUrl {
        assert r == c;
      }
    } else if req.action == SendTestAction {
      assert r == SendTestMessage(c, env.sendOk).client;
    } else {
      assert r == c;
    }
  }

  lemma ReconnectValid(c: Client, constructs: bool)
    requires Valid(c)
    ensures Valid(Reconnect(c, constructs))
  {
    assert Valid(ClearReconnectInterval(c));
  }

  lemma StepValid(c: Client, e: Event)
    requires Valid(c)
    ensures Valid(Step(c, e))
  {
    match e
    case Requested(req, env) =>
      RequestOutcome(c, req, env);
      ReconnectValid(c.(serverUrl := RequestUrl(c, req)), env.constructs);
    case TimerFired(constructs) =>
      ReconnectValid(c, constructs);
    case _ =>
  }

  /**
   * Whatever happens, the delay stays within [5000, 30000], a pending timer's
   * delay too, and at most 10 reconnect attempts are counted.
   */
  lemma {:induction false} RunValid(c: Client, es: seq<Event>)
    requires Valid(c)
    ensures Valid(Run(c, es))
    decreases |es|
  {
    if |es| > 0 {
      StepValid(c, es[0]);
      RunValid(Step(c, es[0]), es[1..]);
    }
  }

  lemma StartValid(constructs: bool)
    ensures Valid(Start(constructs))
  {
  }

  /** The notification counter never goes down. */
  lemma {:induction false} RunCountGrows(c: Client, es: seq<Event>)
    ensures Run(c, es).notificationCount >= c.notificationCount
    decreases |es|
  {
    if |es| > 0 {
      RunCountGrows(Step(c, es[0]), es[1..]);
    }
  }

  /**
   * The state the client is always in, as written: with no timer pending
   * the delay is 5000, and a pending timer was armed with 5000 and left the
   * delay at 7500. Only `clearReconnectInterval` removes a pending timer, and
   * it also resets the delay, so the growth at each scheduling is undone
   * before the next one.
   */
  predicate BackoffDormant(c: Client)
  {
    && (c.timer.NoTimer? ==> c.reconnectDelay == InitialReconnectDelay)
    && (c.timer.Armed? ==> c.timer.delay == InitialReconnectDelay
                           && c.reconnectDelay == InitialReconnectDelay * BackoffFactor)
  }

  /** Whatever state it starts from, `reconnect()` leaves the backoff dormant. */
  lemma ReconnectDormant(c: Client, constructs: bool)
    ensures BackoffDormant(Reconnect(c, constructs))
  {
  }

  lemma StepDormant(c: Client, e: Event)
    requires BackoffDormant(c)
    ensures BackoffDormant(Step(c, e))
  {
    match e
    case Requested(req, env) =>
      RequestOutcome(c, req, env);
      ReconnectDormant(c.(serverUrl := RequestUrl(c, req)), env.constructs);
    case TimerFired(constructs) =>
      ReconnectDormant(c, constructs);
    case _ =>
  }

  /** Every reconnect timer the client ever arms waits exactly 5000 ms. */
  lemma {:induction false} ReconnectDelayNeverGrows(constructs: bool, es: seq<Event>)
    ensures BackoffDormant(Run(Start(constructs), es))
    ensures Run(Start(constructs), es).timer.Armed? ==> Run(Start(constructs), es).timer.delay == InitialReconnectDelay
  {
    RunDormant(Start(constructs), es);
  }

  lemma {:induction false} RunDormant(c: Client, es: seq<Event>)
    requires BackoffDormant(c)
    ensures BackoffDormant(Run(c, es))
    decreases |es|
  {
    if |es| > 0 {
      StepDormant(c, es[0]);
      RunDormant(Step(c, es[0]), es[1..]);
    }
  }

  /** A socket that dies abnormally, then the timer firing and a new socket being built. */
  function FailCycles(n: nat): seq<Event>
  {
    if n == 0 then [] else [Closed(1006), TimerFired(true)] + FailCycles(n - 1)
  }

  /**
   * Repeated abnormal closes: each one counts an attempt until the cap of 10;
   * from then on no timer is armed, so the client stays down with the counter
   * at 10 until something else happens.
   */
  lemma {:induction false} FailCyclesCap(c: Client, n: nat)
    requires Valid(c) && c.timer.NoTimer?
    ensures Run(c, FailCycles(n)).reconnectAttempts
            == (if c.reconnectAttempts + n <= MaxReconnectAttempts then c.reconnectAttempts + n else MaxReconnectAttempts)
    ensures n > 0 ==> Run(c, FailCycles(n)).timer.NoTimer? && !Run(c, FailCycles(n)).isConnected
    decreases n
  {
    if n > 0 {
      var es := FailCycles(n);
      var c1 := Step(c, es[0]);
      var c2 := Step(c1, es[1]);
      assert es[2..] == FailCycles(n - 1);
      assert Run(c, es) == Run(c2, FailCycles(n - 1)) by {
        assert es[1..][1..] == es[2..];
      }
      FailCyclesCap(c2, n - 1);
    }
  }

  /** Events that happen without anyone asking for a (re)connection. */
  predicate Automatic(e: Event)
  {
    e.SettingsLoaded? || e.Closed? || e.SocketError? || e.Received? || e.TimerFired?
  }

  /**
   * Once 10 attempts are counted and no timer is pending, no automatic
   * event arms a timer again: only an open socket or a request can.
   */
  lemma {:induction false} GivesUpAtCap(c: Client, es: seq<Event>)
    requires c.reconnectAttempts >= MaxReconnectAttempts && c.timer.NoTimer?
    requires forall i :: 0 <= i < |es| ==> Automatic(es[i])
    ensures Run(c, es).timer.NoTimer?
    ensures Run(c, es).reconnectAttempts == c.reconnectAttempts
    decreases |es|
  {
    if |es| > 0 {
      GivesUpAtCap(Step(c, es[0]), es[1..]);
    }
  }
}

=== FILE: escaping.dfy ===
/**
 * The escaping in `injectToasterCode`: before the notification fields are
 * pasted between single quotes into the script injected into the page,
 * `'` (and in title and message also the backtick) is prefixed with a
 * backslash. `ReadQuoted` is how a JavaScript parser reads such a literal
 * back; it shows which texts survive the trip and which break out of it.
 */
module Escaping {
  import opened Wrappers
  import opened JsValues
  import opened Payload
  import Text

  const Quote: set<char> := {'\''}
  const QuoteAndBacktick: set<char> := {'\'', '`'}

  /** `s.replace(/c/g, "\\c")` for every `c` in `specials`: a backslash before each special character. */
  function Escape(s: string, specials: set<char>): (r: string)
    ensures |r| == |s| + Text.CountIn(s, specials)
    ensures '\\' !in specials ==>
              forall i :: 0 <= i < |r| && r[i] in specials ==> i > 0 && r[i - 1] == '\\'
    decreases |s|
  {
    if |s| == 0 then []
    else
      var head := if s[0] in specials then ['\\', s[0]] else [s[0]];
      var rest := Escape(s[1..], specials);
      assert forall i :: |head| <= i < |head| + |rest| ==> (head + rest)[i] == rest[i - |head|];
      head + rest
  }

  /** Drops each backslash that stands right before a special character. */
  function Unescape(r: string, specials: set<char>): string
    decreases |r|
  {
    if |r| == 0 then []
    else if |r| >= 2 && r[0] == '\\' && r[1] in specials then [r[1]] + Unescape(r[2..], specials)
    else [r[0]] + Unescape(r[1..], specials)
  }

  /**
   * Escaping only inserts backslashes: removing the ones before special
   * characters gives the text back. Backslashes already in the text are
   * left as they are.
   */
  lemma {:induction false} EscapeRoundTrip(s: string, specials: set<char>)
    requires '\\' !in specials
    ensures Unescape(Escape(s, specials), specials) == s
    decreases |s|
  {
    if |s| > 0 {
      var rest := Escape(s[1..], specials);
      EscapeRoundTrip(s[1..], specials);
      if s[0] in specials {
        assert (['\\', s[0]] + rest)[2..] == rest;
      } else {
        var r := [s[0]] + rest;
        assert r[1..] == rest;
        assert |r| >= 2 && r[0] == '\\' ==> r[1] !in specials;
      }
      assert s == [s[0]] + s[1..];
    }
  }

  /** Text without special characters is left unchanged. */
  lemma {:induction false} EscapeNothingSpecial(s: string, specials: set<char>)
    requires forall i :: 0 <= i < |s| ==> s[i] !in specials
    ensures Escape(s, specials) == s
    decreases |s|
  {
    if |s| > 0 {
      EscapeNothingSpecial(s[1..], specials);
      assert s == [s[0]] + s[1..];
    }
  }

  /**
   * The source chains `.replace(/'/g, ...)` and `.replace(/`/g, ...)`; since
   * the first only adds backslashes, the chain is one pass over both characters.
   */
  lemma {:induction false} ChainedReplaceIsOnePass(s: string)
    ensures Escape(Escape(s, Quote), {'`'}) == Escape(s, QuoteAndBacktick)
    decreases |s|
  {
    if |s| > 0 {
      ChainedReplaceIsOnePass(s[1..]);
      var head := if s[0] in Quote then ['\\', s[0]] else [s[0]];
      EscapeAppend(head, Escape(s[1..], Quote), {'`'});
      if s[0] == '\'' {
        assert Escape(head, {'`'}) == ['\\', '\''] by {
          assert head[1..] == ['\''];
          assert Escape(head[1..], {'`'}) == ['\''];
        }
      } else {
        assert Escape(head, {'`'}) == (if s[0] == '`' then ['\\', s[0]] else [s[0]]);
      }
    }
  }

  lemma {:induction false} EscapeAppend(a: string, b: string, specials: set<char>)
    ensures Escape(a + b, specials) == Escape(a, specials) + Escape(b, specials)
    decreases |a|
  {
    if |a| > 0 {
      EscapeAppend(a[1..], b, specials);
      assert (a + b)[1..] == a[1..] + b;
    } else {
      assert a + b == b;
    }
  }

  /** The arguments spliced into the injected `showUnSuckNPortToaster(...)` call. */
  datatype ToasterArgs = ToasterArgs(title: string, message: string, kind: string, url: string)

  /**
   * `(v || fallback).replace(...)`: the fallback when `v` is falsy, the
   * escaped string when it is one, and a TypeError (`None`) for any other
   * truthy value, which has no `replace`.
   */
  function EscapeField(v: JsValue, fallback: string, specials: set<char>): (r: Option<string>)
    ensures r.Some? <==> FalsyOrString(v)
    ensures !Truthy(Some(v)) ==> r == Some(Escape(fallback, specials))
    ensures Truthy(Some(v)) && v.JStr? ==> r == Some(Escape(v.s, specials))
  {
    if !Truthy(Some(v)) then Some(Escape(fallback, specials))
    else if v.JStr? then Some(Escape(v.s, specials))
    else None
  }

  predicate FalsyOrString(v: JsValue)
  {
    !Truthy(Some(v)) || v.JStr?
  }

  /**
   * Lines 218-221 of `injectToasterCode`. The url becomes a quoted literal,
   * or the bare word `null` when falsy.
   */
  function InjectArgs(n: Notice): (r: Option<ToasterArgs>)
    ensures r.Some? <==> FalsyOrString(n.title) && FalsyOrString(n.message)
                         && FalsyOrString(n.kind) && FalsyOrString(n.url)
    ensures r.Some? && !Truthy(Some(n.title)) ==> r.value.title == ""
    ensures r.Some? && !Truthy(Some(n.message)) ==> r.value.message == ""
    ensures r.Some? && !Truthy(Some(n.kind)) ==> r.value.kind == "info"
    ensures r.Some? && Truthy(Some(n.title)) ==> r.value.title == Escape(n.title.s, QuoteAndBacktick)
    ensures r.Some? && Truthy(Some(n.message)) ==> r.value.message == Escape(n.message.s, QuoteAndBacktick)
    ensures r.Some? && Truthy(Some(n.kind)) ==> r.value.kind == Escape(n.kind.s, Quote)
    ensures r.Some? ==> (r.value.url == "null" <==> !Truthy(Some(n.url)))
    ensures r.Some? && Truthy(Some(n.url)) ==>
              r.value.url == "'" + Escape(n.url.s, Quote) + "'"
  {
    var title := EscapeField(n.title, "", QuoteAndBacktick);
    var message := EscapeField(n.message, "", QuoteAndBacktick);
    var kind := EscapeField(n.kind, DefaultKind, Quote);
    var url := UrlArg(n.url);
    if title.None? || message.None? || kind.None? || url.None? then None
    else
      EscapeNothingSpecial(DefaultKind, Quote);
      Some(ToasterArgs(title.value, message.value, kind.value, url.value))
  }

  /** The url argument: a quoted, escaped literal, or the bare word `null` when falsy. */
  function UrlArg(url: JsValue): (r: Option<string>)
    ensures r.Some? <==> FalsyOrString(url)
    ensures r.Some? ==> (r.value == "null" <==> !Truthy(Some(url)))
    ensures r.Some? && Truthy(Some(url)) ==> r.value == "'" + Escape(url.s, Quote) + "'"
  {
    if !Truthy(Some(url)) then Some("null")
    else if url.JStr? then
      var quoted := "'" + Escape(url.s, Quote) + "'";
      assert quoted[0] == '\'';
      Some(quoted)
    else None
  }

  /**
   * As written, removing the inserted backslashes from the injected title and
   * message gives back the notification's own text.
   */
  lemma InjectArgsUnescape(n: Notice)
    requires InjectArgs(n).Some?
    ensures n.title.JStr? ==> Unescape(InjectArgs(n).value.title, QuoteAndBacktick) == n.title.s
    ensures n.message.JStr? ==> Unescape(InjectArgs(n).value.message, QuoteAndBacktick) == n.message.s
  {
    EscapeRoundTrip(StringOr(n.title), QuoteAndBacktick);
    EscapeRoundTrip(StringOr(n.message), QuoteAndBacktick);
  }

  /**
   * The character a JavaScript escape `\d` denotes inside a string literal,
   * or `None` for escapes this model does not read (octal, `\x`, `\u` and
   * line continuations).
   */
  function EscapeValue(d: char): Option<char>
  {
    if d == 'n' then Some('\n')
    else if d == 'r' then Some('\r')
    else if d == 't' then Some('\t')
    else if d == 'b' then Some('\U{8}')
    else if d == 'f' then Some('\U{C}')
    else if d == 'v' then Some('\U{B}')
    else if ('0' <= d <= '9') || d == 'x' || d == 'u'
            || d == '\n' || d == '\r' || d == '\U{2028}' || d == '\U{2029}' then None
    else Some(d)
  }

  /**
   * Reads the body of a single-quoted JavaScript string literal, starting
   * after the opening quote: the value it denotes and the source text after
   * the closing quote. `None` when the literal is unterminated, holds a raw
   * line break, or uses an escape outside `EscapeValue`.
   */
  function ReadQuoted(t: string): Option<(string, string)>
    decreases |t|
  {
    if |t| == 0 then None
    else if t[0] == '\'' then Some(([], t[1..]))
    else if t[0] == '\n' || t[0] == '\r' then None
    else if t[0] == '\\' then
      if |t| < 2 || EscapeValue(t[1]).None? then None
      else Prepend(EscapeValue(t[1]).value, ReadQuoted(t[2..]))
    else Prepend(t[0], ReadQuoted(t[1..]))
  }

  /** The read of the rest of a literal, with one more character in front of its value. */
  function Prepend(c: char, rest: Option<(string, string)>): Option<(string, string)>
  {
    if rest.None? then None else Some(([c] + rest.value.0, rest.value.1))
  }

  lemma ReadPlain(c: char, rest: string)
    requires c != '\'' && c != '\\' && c != '\n' && c != '\r'
    ensures ReadQuoted([c] + rest) == Prepend(c, ReadQuoted(rest))
  {
    assert ([c] + rest)[1..] == rest;
  }

  lemma ReadEscaped(d: char, rest: string)
    requires EscapeValue(d).Some?
    ensures ReadQuoted(['\\', d] + rest) == Prepend(EscapeValue(d).value, ReadQuoted(rest))
  {
    assert (['\\', d] + rest)[2..] == rest;
  }

  lemma ReadClose(rest: string)
    ensures ReadQuoted(['\''] + rest) == Some(([], rest))
  {
    assert (['\''] + rest)[1..] == rest;
  }

  /**
   * As written, the escaping is sound for text with no backslash and no
   * line break: the literal reads back as the text, and the code after it
   * is untouched.
   */
  lemma {:induction false} AsWrittenSoundWithoutBackslash(s: string, tail: string)
    requires forall i :: 0 <= i < |s| ==> s[i] != '\\' && s[i] != '\n' && s[i] != '\r'
    ensures ReadQuoted(Escape(s, QuoteAndBacktick) + "'" + tail) == Some((s, tail))
    decreases |s|
  {
    if |s| > 0 {
      AsWrittenSoundWithoutBackslash(s[1..], tail);
      var rest := Escape(s[1..], QuoteAndBacktick) + "'" + tail;
      EscapeCons(s, QuoteAndBacktick, "'" + tail);
      assert Escape(s, QuoteAndBacktick) + "'" + tail == Escape(s, QuoteAndBacktick) + ("'" + tail);
      assert rest == Escape(s[1..], QuoteAndBacktick) + ("'" + tail);
      if s[0] in QuoteAndBacktick {
        ReadEscaped(s[0], rest);
      } else {
        ReadPlain(s[0], rest);
      }
      assert s == [s[0]] + s[1..];
    } else {
      ReadClose(tail);
      assert Escape(s, QuoteAndBacktick) + "'" + tail == ['\''] + tail;
    }
  }

  /** What one character becomes under `Escape`. */
  function EscapeHead(c: char, specials: set<char>): string
  {
    if c in specials then ['\\', c] else [c]
  }

  /** `Escape` works one character at a time, whatever follows it. */
  lemma EscapeCons(s: string, specials: set<char>, after: string)
    requires |s| > 0
    ensures Escape(s, specials) + after
            == EscapeHead(s[0], specials) + (Escape(s[1..], specials) + after)
  {
  }

  /**
   * A message consisting of a backslash and a quote: as written it becomes
   * `\\'`, which JavaScript reads as a lone backslash followed by the end of
   * the literal, so the rest of the text runs on as script code.
   */
  lemma BackslashBreaksOut()
    ensures Escape("\\'", QuoteAndBacktick) == "\\\\'"
    ensures ReadQuoted(Escape("\\'", QuoteAndBacktick) + "'") == Some(("\\", "'"))
  {
    assert Escape("\\'", QuoteAndBacktick) == "\\\\'" by {
      assert "\\'"[1..] == "'";
      assert Escape("'", QuoteAndBacktick) == "\\'" by {
        assert "'"[1..] == [];
      }
    }
    ReadClose("'");
    ReadEscaped('\\', "''");
    assert "\\\\'" + "'" == ['\\', '\\'] + "''";
    assert "''" == ['\''] + "'";
    assert ReadQuoted("''") == Some(([], "'"));
    assert ['\\'] + [] == "\\";
  }

  /**
   * As written, a text with no backslash but with a line feed or carriage
   * return at position `j` yields a literal JavaScript cannot parse,
   * whatever script follows it.
   */
  lemma {:induction false} LineBreakUnparsable(s: string, j: nat, tail: string)
    requires forall i :: 0 <= i < |s| ==> s[i] != '\\'
    requires j < |s| && (s[j] == '\n' || s[j] == '\r')
    ensures ReadQuoted(Escape(s, QuoteAndBacktick) + "'" + tail) == None
    decreases |s|
  {
    EscapeCons(s, QuoteAndBacktick, "'" + tail);
    assert Escape(s, QuoteAndBacktick) + "'" + tail == Escape(s, QuoteAndBacktick) + ("'" + tail);
    var rest := Escape(s[1..], QuoteAndBacktick) + ("'" + tail);
    if s[0] == '\n' || s[0] == '\r' {
      assert (EscapeHead(s[0], QuoteAndBacktick) + rest)[0] == s[0];
    } else {
      LineBreakUnparsable(s[1..], j - 1, tail);
      assert rest == Escape(s[1..], QuoteAndBacktick) + "'" + tail;
      if s[0] in QuoteAndBacktick {
        ReadEscaped(s[0], rest);
      } else {
        ReadPlain(s[0], rest);
      }
    }
  }

  /** The shortest case: `a`, a line feed, `b`. */
  lemma LineFeedExample()
    ensures ReadQuoted(Escape("a\nb", QuoteAndBacktick) + "'") == None
  {
    LineBreakUnparsable("a\nb", 1, "");
    assert Escape("a\nb", QuoteAndBacktick) + "'" + "" == Escape("a\nb", QuoteAndBacktick) + "'";
  }

  /** The escape of one character that keeps it inside a single-quoted literal. */
  function EscapeCharForLiteral(c: char): string
  {
    if c == '\\' || c == '\'' || c == '`' then ['\\', c]
    else if c == '\n' then "\\n"
    else if c == '\r' then "\\r"
    else [c]
  }

  /** Corrected escaping: also escapes the backslash itself and line breaks. */
  function EscapeForLiteral(s: string): string
    decreases |s|
  {
    if |s| == 0 then [] else EscapeCharForLiteral(s[0]) + EscapeForLiteral(s[1..])
  }

  /** With the corrected escaping every text reads back exactly, and the script after it is left intact. */
  lemma {:induction false} LiteralRoundTrip(s: string, tail: string)
    ensures ReadQuoted(EscapeForLiteral(s) + "'" + tail) == Some((s, tail))
    decreases |s|
  {
    if |s| > 0 {
      LiteralRoundTrip(s[1..], tail);
      var rest := EscapeForLiteral(s[1..]) + "'" + tail;
      var c := s[0];
      assert EscapeForLiteral(s) + "'" + tail == EscapeCharForLiteral(c) + rest;
      if c == '\\' || c == '\'' || c == '`' {
        ReadEscaped(c, rest);
      } else if c == '\n' {
        ReadEscaped('n', rest);
      } else if c == '\r' {
        ReadEscaped('r', rest);
      } else {
        ReadPlain(c, rest);
      }
      assert s == [s[0]] + s[1..];
    } else {
      ReadClose(tail);
      assert EscapeForLiteral(s) + "'" + tail == ['\''] + tail;
    }
  }

  /**
   * Lines 218-221 with the corrected escaping: every field that is a string
   * reads back as itself from the injected literal.
   */
  function SafeInjectArgs(n: Notice): (r: Option<ToasterArgs>)
    ensures r.Some? <==> FalsyOrString(n.title) && FalsyOrString(n.message)
                         && FalsyOrString(n.kind) && FalsyOrString(n.url)
    ensures r.Some? && n.title.JStr? ==> ReadQuoted(r.value.title + "'") == Some((n.title.s, ""))
    ensures r.Some? && n.message.JStr? ==> ReadQuoted(r.value.message + "'") == Some((n.message.s, ""))
    ensures r.Some? && n.kind.JStr? && n.kind.s != "" ==> ReadQuoted(r.value.kind + "'") == Some((n.kind.s, ""))
    ensures r.Some? && Truthy(Some(n.url)) ==>
              |r.value.url| >= 1 && r.value.url[0] == '\'' && ReadQuoted(r.value.url[1..]) == Some((n.url.s, ""))
  {
    var title := SafeField(n.title, "");
    var message := SafeField(n.message, "");
    var kind := SafeField(n.kind, DefaultKind);
    var url := SafeUrlArg(n.url);
    if title.None? || message.None? || kind.None? || url.None? then None
    else Some(ToasterArgs(title.value, message.value, kind.value, url.value))
  }

  /** The url argument with the corrected escaping. */
  function SafeUrlArg(url: JsValue): (r: Option<string>)
    ensures r.Some? <==> FalsyOrString(url)
    ensures r.Some? && Truthy(Some(url)) ==>
              |r.value| >= 1 && r.value[0] == '\'' && ReadQuoted(r.value[1..]) == Some((url.s, ""))
  {
    if !Truthy(Some(url)) then Some("null")
    else if url.JStr? then
      var quoted := "'" + EscapeForLiteral(url.s) + "'";
      LiteralRoundTrip(url.s, "");
      assert quoted[1..] == EscapeForLiteral(url.s) + "'" + "";
      Some(quoted)
    else None
  }

  /** The text of a string value, and the empty text for any other value. */
  function StringOr(v: JsValue): string
  {
    if v.JStr? then v.s else ""
  }

  /** A title, message or type argument with the corrected escaping; it reads back as the text it escapes. */
  function SafeField(v: JsValue, fallback: string): (r: Option<string>)
    ensures r.Some? <==> FalsyOrString(v)
    ensures r.Some? ==> ReadQuoted(r.value + "'") == Some((if Truthy(Some(v)) then v.s else fallback, ""))
  {
    var text := if !Truthy(Some(v)) then fallback else StringOr(v);
    LiteralRoundTrip(text, "");
    assert EscapeForLiteral(text) + "'" == EscapeForLiteral(text) + "'" + "";
    if !Truthy(Some(v)) || v.JStr? then Some(EscapeForLiteral(text))
    else None
  }
}

=== FILE: js_values.dfy ===
/**
 * The JavaScript values a WebSocket payload can parse to, and the truthiness
 * rules that `a || b` uses when the client fills in defaults.
 */
module JsValues {
  import opened Wrappers

  /** A value `JSON.parse` can produce. */
  datatype JsValue =
    | JStr(s: string)
    | JNum(n: real)
    | JBool(b: bool)
    | JNull
    | JArray(items: seq<JsValue>)
    | JObject(fields: map<string, JsValue>)

  /** JavaScript truthiness; `None` stands for `undefined`. JSON has no NaN. */
  predicate Truthy(v: Option<JsValue>)
  {
    match v
    case None => false
    case Some(JStr(s)) => s != ""
    case Some(JNum(n)) => n != 0.0
    case Some(JBool(b)) => b
    case Some(JNull) => false
    case Some(JArray(_)) => true
    case Some(JObject(_)) => true
  }

  /** `a || b`: the left operand when it is truthy, the right one otherwise. */
  function Or(a: Option<JsValue>, b: JsValue): (r: JsValue)
    ensures Truthy(a) ==> Some(r) == a
    ensures !Truthy(a) ==> r == b
    ensures Truthy(Some(r)) <==> Truthy(a) || Truthy(Some(b))
  {
    if Truthy(a) then a.value else b
  }

  /**
   * Property access `v.key` on a value that is not `null`. Only objects carry
   * the keys the client reads (`title`, `message`, `type`, `url`); on strings,
   * numbers, booleans and arrays those keys are `undefined`.
   */
  function Get(v: JsValue, key: string): (r: Option<JsValue>)
    ensures r.Some? <==> v.JObject? && key in v.fields
    ensures r.Some? ==> r.value == v.fields[key]
  {
    if v.JObject? && key in v.fields then Some(v.fields[key]) else None
  }
}

=== FILE: payload.dfy ===
/**
 * `handleIncomingMessage`: how the background client turns one WebSocket
 * text frame into the (title, message, type, url) of a notification. The
 * outcome of `JSON.parse` on the frame is an input.
 */
module Payload {
  import opened Wrappers
  import opened JsValues

  /** What `JSON.parse(raw)` did: threw, or produced a value. */
  datatype Parsed = NotJson | Json(value: JsValue)

  /** The four fields handed to `showNotification`. `kind` is the source's `type`. */
  datatype Notice = Notice(title: JsValue, message: JsValue, kind: JsValue, url: JsValue)

  const DefaultTitle: string := "WebSocket Nachricht"
  const DefaultKind: string := "info"

  /**
   * The fields with their defaults. A frame that is not JSON is wrapped as
   * `{message: raw}`; a frame that parses to `null` makes the property access
   * throw, which the handler catches, so no notification is shown (`None`).
   */
  function Defaults(raw: string, parsed: Parsed): (r: Option<Notice>)
    ensures r.None? <==> parsed == Json(JNull)
    ensures parsed.NotJson? ==> r == Some(Notice(JStr(DefaultTitle), JStr(raw), JStr(DefaultKind), JNull))
    ensures r.Some? ==> Truthy(Some(r.value.title)) && Truthy(Some(r.value.kind))
    ensures r.Some? ==> r.value.url == JNull || Truthy(Some(r.value.url))
    ensures r.Some? ==> Truthy(Some(r.value.message)) || r.value.message == JStr(raw)
  {
    var data := match parsed
      case NotJson => JObject(map["message" := JStr(raw)])
      case Json(v) => v;
    if data == JNull then None
    else Some(Notice(
      Or(Get(data, "title"), JStr(DefaultTitle)),
      Or(Get(data, "message"), JStr(raw)),
      Or(Get(data, "type"), JStr(DefaultKind)),
      Or(Get(data, "url"), JNull)))
  }

  /**
   * For a JSON object each field is kept exactly when it is truthy; a falsy
   * or missing field takes the default, and a missing message the raw text.
   */
  lemma ObjectFields(raw: string, fields: map<string, JsValue>)
    ensures var n := Defaults(raw, Json(JObject(fields))).value;
      && (if "title" in fields && Truthy(Some(fields["title"])) then n.title == fields["title"] else n.title == JStr(DefaultTitle))
      && (if "message" in fields && Truthy(Some(fields["message"])) then n.message == fields["message"] else n.message == JStr(raw))
      && (if "type" in fields && Truthy(Some(fields["type"])) then n.kind == fields["type"] else n.kind == JStr(DefaultKind))
      && (if "url" in fields && Truthy(Some(fields["url"])) then n.url == fields["url"] else n.url == JNull)
  {
  }

  /**
   * JSON that is neither an object nor `null` (a string, number, boolean or
   * array) has none of the four keys, so it is shown as if it were plain text.
   */
  lemma NonObjectJsonIsPlainText(raw: string, v: JsValue)
    requires !v.JObject? && !v.JNull?
    ensures Defaults(raw, Json(v)) == Defaults(raw, NotJson)
  {
  }
}

=== FILE: popup.dfy ===
/**
 * The popup's logic that does not touch the page: reading the custom URL
 * list, choosing the request behind the reconnect button, and showing the
 * reconnect counter from a status reply.
 */
module Popup {
  import opened Wrappers
  import opened Text
  import C = Connection

  /** The custom URL field read as a list: an error when it holds only whitespace. */
  datatype CustomUrls = NoUrls | Urls(urls: seq<string>)

  /** `.map(url => url.trim())` */
  function TrimEach(parts: seq<string>): (r: seq<string>)
    ensures |r| == |parts|
    ensures forall i :: 0 <= i < |r| ==> r[i] == Trim(parts[i])
  {
    if |parts| == 0 then [] else [Trim(parts[0])] + TrimEach(parts[1..])
  }

  /** `.filter(url => url.length > 0)` */
  function NonEmpty(parts: seq<string>): (r: seq<string>)
    ensures |r| <= |parts|
    ensures forall x :: x in r <==> x in parts && x != []
    ensures |parts| > 0 && parts[0] != [] ==> r != [] && r[0] == parts[0]
  {
    if |parts| == 0 then []
    else if parts[0] == [] then NonEmpty(parts[1..])
    else [parts[0]] + NonEmpty(parts[1..])
  }

  /**
   * `startCustomMonitoring`'s reading of the text area: trim the whole text,
   * refuse it when nothing is left, otherwise split at line feeds, trim each
   * line and drop the empty ones.
   */
  function ParseCustomUrls(text: string): (r: CustomUrls)
    ensures r.NoUrls? <==> AllSpace(text)
  {
    var whole := Trim(text);
    if whole == [] then NoUrls
    else Urls(NonEmpty(TrimEach(Split(whole, '\n'))))
  }

  /** Every URL read is non-empty, trimmed and a single line. */
  lemma ParsedUrlsClean(text: string)
    requires ParseCustomUrls(text).Urls?
    ensures var urls := ParseCustomUrls(text).urls;
            forall i :: 0 <= i < |urls| ==> urls[i] != [] && NoEdgeSpace(urls[i]) && '\n' !in urls[i]
  {
    var lines := Split(Trim(text), '\n');
    var trimmed := TrimEach(lines);
    var urls := NonEmpty(trimmed);
    assert ParseCustomUrls(text).urls == urls;
    forall i | 0 <= i < |urls|
      ensures urls[i] != [] && NoEdgeSpace(urls[i]) && '\n' !in urls[i]
    {
      assert urls[i] in trimmed;
      var j :| 0 <= j < |trimmed| && trimmed[j] == urls[i];
      assert urls[i] == Trim(lines[j]);
      if '\n' in urls[i] {
        TrimSubset(lines[j], '\n');
      }
    }
  }

  /** A text with something in it yields at least one URL and at most one per line. */
  lemma ParsedUrlsCount(text: string)
    requires ParseCustomUrls(text).Urls?
    ensures 1 <= |ParseCustomUrls(text).urls| <= CountIn(Trim(text), {'\n'}) + 1
  {
    var whole := Trim(text);
    var lines := Split(whole, '\n');
    assert lines[0] != [] && lines[0][0] == whole[0];
    assert !IsJsWhitespace(lines[0][0]);
    assert Trim(lines[0]) != [];
    assert TrimEach(lines)[0] != [];
  }

  lemma {:induction false} NonEmptyKeeps(parts: seq<string>)
    requires forall i :: 0 <= i < |parts| ==> parts[i] != []
    ensures NonEmpty(parts) == parts
    decreases |parts|
  {
    if |parts| > 0 {
      NonEmptyKeeps(parts[1..]);
      assert parts == [parts[0]] + parts[1..];
    }
  }

  lemma TrimEachKeeps(parts: seq<string>)
    requires forall i :: 0 <= i < |parts| ==> NoEdgeSpace(parts[i])
    ensures TrimEach(parts) == parts
  {
    forall i | 0 <= i < |parts|
      ensures TrimEach(parts)[i] == parts[i]
    {
      TrimKeepsTrimmed(parts[i]);
    }
  }

  lemma {:induction false} TrimEachAppend(a: seq<string>, b: seq<string>)
    ensures TrimEach(a + b) == TrimEach(a) + TrimEach(b)
  {
    forall i | 0 <= i < |a + b|
      ensures TrimEach(a + b)[i] == (TrimEach(a) + TrimEach(b))[i]
    {
      if i < |a| {
        assert (a + b)[i] == a[i];
      } else {
        assert (a + b)[i] == b[i - |a|];
      }
    }
  }

  lemma {:induction false} NonEmptyAppend(a: seq<string>, b: seq<string>)
    ensures NonEmpty(a + b) == NonEmpty(a) + NonEmpty(b)
    decreases |a|
  {
    if |a| > 0 {
      assert (a + b)[0] == a[0];
      assert (a + b)[1..] == a[1..] + b;
      NonEmptyAppend(a[1..], b);
    } else {
      assert a + b == b;
    }
  }

  /**
   * The lines, from `from` on, that hold something besides whitespace,
   * as line numbers in increasing order.
   */
  function LinesWithUrl(lines: seq<string>, from: nat): (idx: seq<nat>)
    requires from <= |lines|
    ensures forall k :: 0 <= k < |idx| ==> from <= idx[k] < |lines| && Trim(lines[idx[k]]) != []
    ensures forall k, l :: 0 <= k < l < |idx| ==> idx[k] < idx[l]
    ensures forall j :: from <= j < |lines| && Trim(lines[j]) != [] ==> j in idx
    decreases |lines| - from
  {
    if from == |lines| then []
    else if Trim(lines[from]) == [] then LinesWithUrl(lines, from + 1)
    else [from] + LinesWithUrl(lines, from + 1)
  }

  /** The trimmed lines at the given line numbers, in that order. */
  function TrimmedAt(lines: seq<string>, idx: seq<nat>): (r: seq<string>)
    requires forall k :: 0 <= k < |idx| ==> idx[k] < |lines|
    ensures |r| == |idx|
    ensures forall k :: 0 <= k < |idx| ==> r[k] == Trim(lines[idx[k]])
  {
    seq(|idx|, k requires 0 <= k < |idx| => Trim(lines[idx[k]]))
  }

  /** Reading from one line on is reading that line, then the rest. */
  lemma NextLine(lines: seq<string>, from: nat)
    requires from < |lines|
    ensures NonEmpty(TrimEach(lines[from..]))
            == NonEmpty([Trim(lines[from])]) + NonEmpty(TrimEach(lines[from + 1..]))
  {
    assert lines[from..] == [lines[from]] + lines[from + 1..];
    TrimEachAppend([lines[from]], lines[from + 1..]);
    NonEmptyAppend([Trim(lines[from])], TrimEach(lines[from + 1..]));
  }

  lemma TrimmedAtCons(lines: seq<string>, j: nat, rest: seq<nat>)
    requires j < |lines|
    requires forall k :: 0 <= k < |rest| ==> rest[k] < |lines|
    ensures TrimmedAt(lines, [j] + rest) == [Trim(lines[j])] + TrimmedAt(lines, rest)
  {
  }

  lemma {:induction false} TrimmedFrom(lines: seq<string>, from: nat)
    requires from <= |lines|
    ensures NonEmpty(TrimEach(lines[from..])) == TrimmedAt(lines, LinesWithUrl(lines, from))
    decreases |lines| - from
  {
    if from < |lines| {
      TrimmedFrom(lines, from + 1);
      NextLine(lines, from);
      var rest := LinesWithUrl(lines, from + 1);
      if Trim(lines[from]) != [] {
        TrimmedAtCons(lines, from, rest);
      }
    }
  }

  /**
   * For any accepted text, the URLs are exactly the lines of the trimmed
   * text that hold something besides whitespace, each trimmed, in line
   * order: the i-th URL comes from the i-th such line.
   */
  lemma ParseInLineOrder(text: string)
    requires ParseCustomUrls(text).Urls?
    ensures var lines := Split(Trim(text), '\n');
            ParseCustomUrls(text).urls == TrimmedAt(lines, LinesWithUrl(lines, 0))
  {
    var lines := Split(Trim(text), '\n');
    TrimmedFrom(lines, 0);
    assert lines[0..] == lines;
  }

  /** Joined URLs, each trimmed and non-empty, have nothing to trim at either end. */
  lemma JoinedIsTrimmed(urls: seq<string>)
    requires |urls| >= 1
    requires forall i :: 0 <= i < |urls| ==> urls[i] != [] && NoEdgeSpace(urls[i])
    ensures Trim(Join(urls, '\n')) == Join(urls, '\n') != []
  {
    JoinEdges(urls, '\n');
    assert NoEdgeSpace(urls[0]) && NoEdgeSpace(urls[|urls| - 1]);
    TrimKeepsTrimmed(Join(urls, '\n'));
  }

  /**
   * Writing URLs one per line and reading the field back gives exactly
   * those URLs, in order.
   */
  lemma {:induction false} ParseJoined(urls: seq<string>)
    requires |urls| >= 1
    requires forall i :: 0 <= i < |urls| ==> urls[i] != [] && NoEdgeSpace(urls[i]) && '\n' !in urls[i]
    ensures ParseCustomUrls(Join(urls, '\n')) == Urls(urls)
  {
    var text := Join(urls, '\n');
    JoinedIsTrimmed(urls);
    SplitJoin(urls, '\n');
    TrimEachKeeps(urls);
    NonEmptyKeeps(urls);
    assert ParseCustomUrls(text) == Urls(NonEmpty(TrimEach(Split(text, '\n'))));
  }

  /**
   * The reconnect button: a trimmed, non-empty URL that differs from the
   * one shown asks the background to switch server; anything else asks for
   * a plain reconnect.
   */
  function ReconnectRequest(input: string, shownUrl: string): (req: C.Request)
    ensures Trim(input) != [] && Trim(input) != shownUrl ==>
              req == C.Request(C.UpdateUrlAction, Trim(input))
    ensures Trim(input) == [] || Trim(input) == shownUrl ==>
              req.action == C.ReconnectAction
  {
    var newUrl := Trim(input);
    if newUrl != [] && newUrl != shownUrl then C.Request(C.UpdateUrlAction, newUrl)
    else C.Request(C.ReconnectAction, "")
  }

  /**
   * With the popup showing the client's current URL, the button always
   * ends in a reconnect, to the trimmed input when there is one and to the
   * current URL otherwise, and the background answers with success.
   */
  lemma ReconnectButton(c: C.Client, input: string, env: C.Env)
    ensures var reply := C.HandleMessage(c, ReconnectRequest(input, c.serverUrl), env);
            var target := if Trim(input) != [] then Trim(input) else c.serverUrl;
            && reply.response == C.Done
            && reply.effect.client == C.Reconnect(c.(serverUrl := target), env.constructs)
            && reply.effect.client.serverUrl == target
  {
    if Trim(input) == [] || Trim(input) == c.serverUrl {
      assert c.(serverUrl := c.serverUrl) == c;
    }
  }

  /** The status line the popup shows after the reply to the button. */
  function ReconnectStatus(req: C.Request, response: Option<C.Response>): (r: Option<string>)
    ensures r.Some? <==> response == Some(C.Done)
    ensures r.Some? && req.action == C.UpdateUrlAction ==> r.value == "WebSocket verbindet mit neuem Server..."
    ensures r.Some? && req.action != C.UpdateUrlAction ==> r.value == "WebSocket wird neu verbunden..."
  {
    if response == Some(C.Done) then
      if req.action == C.UpdateUrlAction then Some("WebSocket verbindet mit neuem Server...")
      else Some("WebSocket wird neu verbunden...")
    else None
  }

  /** The reconnect counter element: shown as `attempts/max`, or hidden. */
  datatype ReconnectInfo = Shown(attempts: nat, max: nat) | Hidden

  /** The connection panel after a status reply; `Unchanged` when no reply came. */
  datatype StatusView =
    | Unchanged
    | View(stateText: string, serverUrl: string, notificationCount: Option<nat>, info: ReconnectInfo)

  /**
   * `updateWebSocketStatus`'s callback. A reply without status fields reads
   * as disconnected with nothing to show, and its counter stays hidden.
   */
  function UpdateWebSocketStatus(response: Option<C.Response>): (v: StatusView)
    ensures v.Unchanged? <==> response.None?
    ensures v.View? ==> (v.stateText == "Verbunden" <==> response.value.Status? && response.value.connected)
    ensures v.View? && v.info.Shown? <==>
              && response.Some? && response.value.Status?
              && !response.value.connected && response.value.reconnectAttempts > 0
    ensures v.View? && v.info.Shown? ==>
              v.info == Shown(response.value.reconnectAttempts, response.value.maxReconnectAttempts)
  {
    match response
    case None => Unchanged
    case Some(Status(connected, url, count, attempts, max)) =>
      View(if connected then "Verbunden" else "Getrennt", url, Some(count),
           if !connected && attempts > 0 then Shown(attempts, max) else Hidden)
    case Some(_) => View("Getrennt", "", None, Hidden)
  }

  /** The popup's status query against the client it asks. */
  function StatusOf(c: C.Client): StatusView
  {
    UpdateWebSocketStatus(Some(C.HandleMessage(c, C.Request(C.GetStatusAction, ""), C.Env(true, true)).response))
  }

  /**
   * The counter is shown exactly while the client is disconnected with
   * attempts counted, and then shows the client's own numbers.
   */
  lemma StatusShowsAttempts(c: C.Client)
    ensures StatusOf(c).View?
    ensures StatusOf(c).info.Shown? <==> !c.isConnected && c.reconnectAttempts > 0
    ensures StatusOf(c).info.Shown? ==> StatusOf(c).info == Shown(c.reconnectAttempts, C.MaxReconnectAttempts)
    ensures StatusOf(c).serverUrl == c.serverUrl
  {
  }

  /** Whatever happened since start-up, the counter never shows more attempts than its maximum of 10. */
  lemma {:induction false} ShownAttemptsWithinCap(constructs: bool, es: seq<C.Event>)
    ensures var info := StatusOf(C.Run(C.Start(constructs), es)).info;
            info.Shown? ==> 1 <= info.attempts <= info.max == 10
  {
    C.StartValid(constructs);
    C.RunValid(C.Start(constructs), es);
  }
}

=== FILE: port_monitor.dfy ===
/**
 * The retry loop of the content script's `PortMonitor`: one loop per URL,
 * guarded by a map of active flags, probing up to `maxRetries` times with a
 * backoff wait between failed attempts, and polling the flag at the top of
 * each attempt. The network probe is an input sequence of outcomes; the
 * status panel is the sequence of statuses the loop reports.
 */
module PortMonitor {
  import opened Wrappers

  /**
   * What `updateStatus` receives for the URL under watch. `Success` and
   * `Failed` are reported without an attempt number.
   */
  datatype Status = Checking(attempt: nat) | Error(attempt: nat) | Success | Failed

  /**
   * The attempt before whose top-of-loop check an external stop lands. The
   * loop sets its flag and checks it for attempt 1 with no await in between,
   * so a stop cannot land before attempt 2.
   */
  type LaterAttempt = k: nat | k >= 2 witness 2

  /** The statuses, the probe count and the attempts after which a backoff wait ran. */
  datatype Trace = Trace(events: seq<Status>, probes: nat, waits: seq<nat>)

  /** One call of `monitorPort`: its trace and the active-flag map it leaves. */
  datatype Run = Run(events: seq<Status>, probes: nat, waits: seq<nat>, active: map<string, bool>)

  /** `monitoringActive.get(url)` is truthy. */
  predicate IsActive(active: map<string, bool>, url: string)
  {
    url in active && active[url]
  }

  /**
   * `checkPort` at attempt `k` collapsed to its result: the HEAD request or
   * the favicon fallback succeeded. Attempts past the end of the list fail.
   */
  function ProbeOk(outcomes: seq<bool>, k: nat): bool
    requires k >= 1
  {
    k - 1 < |outcomes| && outcomes[k - 1]
  }

  /** The flag reads false at the top of attempt `k`. */
  predicate StoppedBefore(stop: Option<LaterAttempt>, k: nat)
  {
    stop.Some? && stop.value <= k
  }

  function Then(a: Trace, b: Trace): Trace
  {
    Trace(a.events + b.events, a.probes + b.probes, a.waits + b.waits)
  }

  /** The statuses and waits of attempts `k`, `k+1`, ... of the `for` loop. */
  function Attempts(maxRetries: int, outcomes: seq<bool>, stop: Option<LaterAttempt>, k: nat): (t: Trace)
    requires k >= 1
    ensures t.probes <= (if maxRetries >= k then maxRetries - k + 1 else 0)
    ensures |t.waits| <= t.probes
    decreases if maxRetries >= k then maxRetries - k + 1 else 0
  {
    if k > maxRetries || StoppedBefore(stop, k) then Trace([], 0, [])
    else if ProbeOk(outcomes, k) then Trace([Checking(k), Success], 1, [])
    else if k < maxRetries then
      Then(Trace([Checking(k), Error(k)], 1, [k]), Attempts(maxRetries, outcomes, stop, k + 1))
    else Trace([Checking(k), Error(k), Failed], 1, [])
  }

  /**
   * `monitorPort(url)`: nothing at all when the URL is already being
   * watched; otherwise the loop from attempt 1, after which the flag is false.
   */
  function MonitorPort(active: map<string, bool>, url: string, maxRetries: int,
                       outcomes: seq<bool>, stop: Option<LaterAttempt>): (r: Run)
    ensures IsActive(active, url) ==> r == Run([], 0, [], active)
    ensures !IsActive(active, url) ==> r.active == active[url := false]
    ensures maxRetries < 1 ==> r.events == [] && r.probes == 0
    ensures r.probes <= (if maxRetries >= 1 then maxRetries else 0)
    ensures Failed in r.events ==> r.probes == maxRetries
    ensures forall i :: 0 <= i < |r.events| && r.events[i].Checking? ==>
              1 <= r.events[i].attempt <= maxRetries && !StoppedBefore(stop, r.events[i].attempt)
  {
    if IsActive(active, url) then Run([], 0, [], active)
    else
      var t := Attempts(maxRetries, outcomes, stop, 1);
      AttemptsReports(maxRetries, outcomes, stop, 1);
      Run(t.events, t.probes, t.waits, active[url := false])
  }

  /**
   * What attempts k, k+1, ... report: `failed` only once every remaining
   * attempt has probed, and `checking` only for attempts in range that no
   * stop preceded.
   */
  lemma {:induction false} AttemptsReports(maxRetries: int, outcomes: seq<bool>, stop: Option<LaterAttempt>, k: nat)
    requires k >= 1
    ensures var t := Attempts(maxRetries, outcomes, stop, k);
            && (Failed in t.events ==> t.probes == maxRetries - k + 1)
            && forall i :: 0 <= i < |t.events| && t.events[i].Checking? ==>
                 k <= t.events[i].attempt <= maxRetries && !StoppedBefore(stop, t.events[i].attempt)
    decreases if maxRetries >= k then maxRetries - k + 1 else 0
  {
    if k <= maxRetries && !StoppedBefore(stop, k) && !ProbeOk(outcomes, k) && k < maxRetries {
      AttemptsReports(maxRetries, outcomes, stop, k + 1);
      var rest := Attempts(maxRetries, outcomes, stop, k + 1);
      var t := Attempts(maxRetries, outcomes, stop, k);
      assert t.events == [Checking(k), Error(k)] + rest.events;
      assert Failed in t.events ==> Failed in rest.events;
      forall i | 0 <= i < |t.events| && t.events[i].Checking?
        ensures k <= t.events[i].attempt <= maxRetries && !StoppedBefore(stop, t.events[i].attempt)
      {
        if i >= 2 {
          assert t.events[i] == rest.events[i - 2];
        }
      }
    }
  }

  /**
   * The loop as the source writes it: a counted `for` with a flag poll at the
   * top, two `break`s and a final clear of the flag. An external stop is the
   * environment writing false into the flag before the poll.
   */
  method MonitorPortLoop(active: map<string, bool>, url: string, maxRetries: int,
                         outcomes: seq<bool>, stop: Option<LaterAttempt>)
    returns (events: seq<Status>, probes: nat, waits: seq<nat>, activeAfter: map<string, bool>)
    ensures Run(events, probes, waits, activeAfter) == MonitorPort(active, url, maxRetries, outcomes, stop)
  {
    if IsActive(active, url) {
      return [], 0, [], active;
    }
    var flag := true;  // monitoringActive.get(url); no other entry is touched
    events, probes, waits := [], 0, [];
    var attempt: nat := 1;
    var exited := false;  // a `break` was taken
    ghost var whole := Attempts(maxRetries, outcomes, stop, 1);
    ThenEmpty(whole);
    while attempt <= maxRetries && !exited
      invariant attempt >= 1
      invariant !exited ==> flag
      invariant !exited ==> Then(Trace(events, probes, waits), Attempts(maxRetries, outcomes, stop, attempt)) == whole
      invariant exited ==> Trace(events, probes, waits) == whole
      decreases maxRetries - attempt, !exited
    {
      ghost var acc := Trace(events, probes, waits);
      if StoppedBefore(stop, attempt) {
        flag := false;
      }
      if !flag {
        NothingLeft(acc, maxRetries, outcomes, stop, attempt);
        exited := true;
      } else {
        events := events + [Checking(attempt)];
        probes := probes + 1;
        if ProbeOk(outcomes, attempt) {
          events := events + [Success];
          flag := false;
          StepSuccess(acc, maxRetries, outcomes, stop, attempt);
          exited := true;
        } else {
          events := events + [Error(attempt)];
          if attempt < maxRetries {
            waits := waits + [attempt];
            StepRetry(acc, maxRetries, outcomes, stop, attempt);
          } else {
            events := events + [Failed];
            StepLast(acc, maxRetries, outcomes, stop, attempt);
          }
          attempt := attempt + 1;
        }
      }
    }
    if !exited {
      NothingLeft(Trace(events, probes, waits), maxRetries, outcomes, stop, attempt);
    }
    activeAfter := active[url := false];
  }

  lemma ThenEmpty(t: Trace)
    ensures Then(Trace([], 0, []), t) == t
  {
    assert [] + t.events == t.events && [] + t.waits == t.waits;
  }

  // One lemma per way an iteration of `MonitorPortLoop` can end, each
  // showing that the accumulated trace still completes to the whole run.

  /** Once the flag reads false or the attempts run out, nothing more is appended. */
  lemma NothingLeft(acc: Trace, n: int, outcomes: seq<bool>, stop: Option<LaterAttempt>, k: nat)
    requires k >= 1 && (k > n || StoppedBefore(stop, k))
    ensures Then(acc, Attempts(n, outcomes, stop, k)) == acc
  {
    assert acc.events + [] == acc.events && acc.waits + [] == acc.waits;
  }

  lemma StepSuccess(acc: Trace, n: int, outcomes: seq<bool>, stop: Option<LaterAttempt>, k: nat)
    requires 1 <= k <= n && !StoppedBefore(stop, k) && ProbeOk(outcomes, k)
    requires Then(acc, Attempts(n, outcomes, stop, k)) == Attempts(n, outcomes, stop, 1)
    ensures Trace(acc.events + [Checking(k)] + [Success], acc.probes + 1, acc.waits)
            == Attempts(n, outcomes, stop, 1)
  {
    assert acc.events + [Checking(k)] + [Success] == acc.events + [Checking(k), Success];
    assert acc.waits + [] == acc.waits;
  }

  lemma StepRetry(acc: Trace, n: int, outcomes: seq<bool>, stop: Option<LaterAttempt>, k: nat)
    requires 1 <= k < n && !StoppedBefore(stop, k) && !ProbeOk(outcomes, k)
    requires Then(acc, Attempts(n, outcomes, stop, k)) == Attempts(n, outcomes, stop, 1)
    ensures Then(Trace(acc.events + [Checking(k)] + [Error(k)], acc.probes + 1, acc.waits + [k]),
                 Attempts(n, outcomes, stop, k + 1))
            == Attempts(n, outcomes, stop, 1)
  {
    var next := Attempts(n, outcomes, stop, k + 1);
    assert acc.events + [Checking(k)] + [Error(k)] + next.events
           == acc.events + ([Checking(k), Error(k)] + next.events);
    assert acc.waits + [k] + next.waits == acc.waits + ([k] + next.waits);
  }

  lemma StepLast(acc: Trace, n: int, outcomes: seq<bool>, stop: Option<LaterAttempt>, k: nat)
    requires 1 <= k && k == n && !StoppedBefore(stop, k) && !ProbeOk(outcomes, k)
    requires Then(acc, Attempts(n, outcomes, stop, k)) == Attempts(n, outcomes, stop, 1)
    ensures Trace(acc.events + [Checking(k)] + [Error(k)] + [Failed], acc.probes + 1, acc.waits)
            == Attempts(n, outcomes, stop, 1)
  {
    assert acc.events + [Checking(k)] + [Error(k)] + [Failed] == acc.events + [Checking(k), Error(k), Failed];
    assert acc.waits + [] == acc.waits;
  }

  /** `(checking from, error from), ..., (checking to, error to)`. */
  function Rounds(from: nat, to: nat): seq<Status>
    decreases if to >= from then to - from + 1 else 0
  {
    if from > to then [] else [Checking(from), Error(from)] + Rounds(from + 1, to)
  }

  /** `[from, from+1, ..., to]`. */
  function Range(from: nat, to: int): seq<nat>
    decreases if to >= from then to - from + 1 else 0
  {
    if from > to then [] else [from] + Range(from + 1, to)
  }

  lemma {:induction false} AllFailFrom(n: int, outcomes: seq<bool>, k: nat)
    requires 1 <= k <= n
    requires forall j :: k <= j <= n ==> !ProbeOk(outcomes, j)
    ensures Attempts(n, outcomes, None, k) == Trace(Rounds(k, n) + [Failed], n - k + 1, Range(k, n - 1))
    decreases n - k
  {
    if k < n {
      AllFailFrom(n, outcomes, k + 1);
      assert Range(k, n - 1) == [k] + Range(k + 1, n - 1);
    }
  }

  /**
   * A URL that never answers, watched with `maxRetries = n`: exactly n probes
   * and n-1 backoff waits, statuses (checking k, error k) for k = 1..n, then
   * one `failed`.
   */
  lemma AlwaysFailing(active: map<string, bool>, url: string, n: int, outcomes: seq<bool>)
    requires !IsActive(active, url)
    requires n >= 1
    requires forall j :: 1 <= j <= n ==> !ProbeOk(outcomes, j)
    ensures MonitorPort(active, url, n, outcomes, None)
            == Run(Rounds(1, n) + [Failed], n, Range(1, n - 1), active[url := false])
  {
    AllFailFrom(n, outcomes, 1);
  }

  /** A failed attempt before the last one: its two reports and a wait, then the rest. */
  lemma FailedAttempt(n: int, outcomes: seq<bool>, stop: Option<LaterAttempt>, k: nat)
    requires 1 <= k < n && !StoppedBefore(stop, k) && !ProbeOk(outcomes, k)
    ensures Attempts(n, outcomes, stop, k)
            == Then(Trace([Checking(k), Error(k)], 1, [k]), Attempts(n, outcomes, stop, k + 1))
  {
  }

  lemma PrependRound(k: nat, to: int, tail: seq<Status>)
    requires k <= to
    ensures [Checking(k), Error(k)] + (Rounds(k + 1, to) + tail) == Rounds(k, to) + tail
  {
  }

  lemma {:induction false} SucceedsFrom(n: int, outcomes: seq<bool>, stop: Option<LaterAttempt>, k: nat, s: nat)
    requires 1 <= k <= s <= n
    requires forall j :: k <= j < s ==> !ProbeOk(outcomes, j)
    requires ProbeOk(outcomes, s)
    requires stop.None? || stop.value > s
    ensures Attempts(n, outcomes, stop, k) == Trace(Rounds(k, s - 1) + [Checking(s), Success], s - k + 1, Range(k, s - 1))
    decreases s - k
  {
    if k < s {
      SucceedsFrom(n, outcomes, stop, k + 1, s);
      FailedAttempt(n, outcomes, stop, k);
      var rest := Attempts(n, outcomes, stop, k + 1);
      PrependRound(k, s - 1, [Checking(s), Success]);
      assert Range(k, s - 1) == [k] + Range(k + 1, s - 1);
      assert Then(Trace([Checking(k), Error(k)], 1, [k]), rest)
          == Trace([Checking(k), Error(k)] + rest.events, 1 + rest.probes, [k] + rest.waits);
    } else {
      assert Rounds(k, s - 1) == [] && Range(k, s - 1) == [];
    }
  }

  /**
   * The first success at attempt s: (checking, error) for attempts before s,
   * then checking s and success; s probes, no `failed`.
   */
  lemma SucceedsAt(active: map<string, bool>, url: string, n: int, outcomes: seq<bool>,
                   stop: Option<LaterAttempt>, s: nat)
    requires !IsActive(active, url)
    requires 1 <= s <= n
    requires forall j :: 1 <= j < s ==> !ProbeOk(outcomes, j)
    requires ProbeOk(outcomes, s)
    requires stop.None? || stop.value > s
    ensures MonitorPort(active, url, n, outcomes, stop)
            == Run(Rounds(1, s - 1) + [Checking(s), Success], s, Range(1, s - 1), active[url := false])
  {
    SucceedsFrom(n, outcomes, stop, 1, s);
  }

  lemma {:induction false} StoppedFrom(n: int, outcomes: seq<bool>, s: LaterAttempt, k: nat)
    requires 1 <= k <= s <= n
    requires forall j :: k <= j < s ==> !ProbeOk(outcomes, j)
    ensures Attempts(n, outcomes, Some(s), k) == Trace(Rounds(k, s - 1), s - k, Range(k, s - 1))
    decreases s - k
  {
    if k < s {
      StoppedFrom(n, outcomes, s, k + 1);
      assert Range(k, s - 1) == [k] + Range(k + 1, s - 1);
    }
  }

  /**
   * A stop landing while attempt s-1 probes or waits: that attempt still
   * reports its error and its wait, and nothing is reported for attempt s on.
   */
  lemma StopDuringAttempt(active: map<string, bool>, url: string, n: int, outcomes: seq<bool>, s: LaterAttempt)
    requires !IsActive(active, url)
    requires s <= n
    requires forall j :: 1 <= j < s ==> !ProbeOk(outcomes, j)
    ensures MonitorPort(active, url, n, outcomes, Some(s))
            == Run(Rounds(1, s - 1), s - 1, Range(1, s - 1), active[url := false])
  {
    StoppedFrom(n, outcomes, s, 1);
  }

  lemma {:induction false} LateStopFrom(n: int, outcomes: seq<bool>, s: LaterAttempt, k: nat)
    requires k >= 1 && s > n
    ensures Attempts(n, outcomes, Some(s), k) == Attempts(n, outcomes, None, k)
    decreases if n >= k then n - k + 1 else 0
  {
    if k <= n && !ProbeOk(outcomes, k) && k < n {
      LateStopFrom(n, outcomes, s, k + 1);
    }
  }

  /**
   * A stop that lands during the last attempt is never polled: the run,
   * including its final `failed`, is the same as with no stop.
   */
  lemma StopAfterLastAttempt(active: map<string, bool>, url: string, n: int, outcomes: seq<bool>, s: LaterAttempt)
    requires s > n
    ensures MonitorPort(active, url, n, outcomes, Some(s)) == MonitorPort(active, url, n, outcomes, None)
  {
    LateStopFrom(n, outcomes, s, 1);
  }

  /** `stopMonitoring(url)`: writes false for `url` (adding the key if new) and nothing else. */
  function StopMonitoring(active: map<string, bool>, url: string): (r: map<string, bool>)
    ensures r.Keys == active.Keys + {url}
    ensures url in r && !r[url]
    ensures forall u :: u in active && u != url ==> r[u] == active[u]
  {
    active[url := false]
  }

  /** `stopAllMonitoring()`: every tracked URL false, no key added or removed. */
  function StopAllMonitoring(active: map<string, bool>): (r: map<string, bool>)
    ensures r.Keys == active.Keys
    ensures forall u :: u in r ==> !r[u]
  {
    map u | u in active :: false
  }

  /** After a stop, calling `monitorPort` for the URL again starts a fresh loop. */
  lemma RestartAfterStop(active: map<string, bool>, url: string, n: int, outcomes: seq<bool>,
                         stop: Option<LaterAttempt>)
    ensures MonitorPort(StopMonitoring(active, url), url, n, outcomes, stop).events
            == Attempts(n, outcomes, stop, 1).events
  {
  }

  predicate NoDuplicates(s: seq<string>)
  {
    forall i, j :: 0 <= i < j < |s| ==> s[i] != s[j]
  }

  /** The flag map after `monitorPorts` has run up to the first await of every loop, and the URLs that got a loop. */
  datatype Launch = Launch(active: map<string, bool>, started: seq<string>)

  /**
   * The synchronous part of `monitorPorts(urls)`: `monitorPort` for each URL
   * in order, each setting its flag before its first await. With
   * `maxRetries < 1` a loop sets its flag and clears it again at once.
   */
  function StartLoops(active: map<string, bool>, urls: seq<string>, maxRetries: int): (r: Launch)
    ensures forall u :: u in r.started ==> u in urls && !IsActive(active, u)
    decreases |urls|
  {
    if |urls| == 0 then Launch(active, [])
    else
      var u := urls[0];
      if IsActive(active, u) then StartLoops(active, urls[1..], maxRetries)
      else
        var rest := StartLoops(active[u := maxRetries >= 1], urls[1..], maxRetries);
        Launch(rest.active, [u] + rest.started)
  }

  /** Only the listed URLs gain or change a flag. */
  lemma {:induction false} StartLoopsFrame(active: map<string, bool>, urls: seq<string>, maxRetries: int)
    ensures StartLoops(active, urls, maxRetries).active.Keys == active.Keys + (set u | u in urls)
    ensures forall u :: u in active && u !in urls ==>
              StartLoops(active, urls, maxRetries).active[u] == active[u]
    decreases |urls|
  {
    if |urls| > 0 {
      var u := urls[0];
      var flags := if IsActive(active, u) then active else active[u := maxRetries >= 1];
      StartLoopsFrame(flags, urls[1..], maxRetries);
      assert forall v :: v in urls <==> v == u || v in urls[1..];
    }
  }

  /** With at least one retry, every listed URL is flagged active once all loops have started. */
  lemma {:induction false} StartLoopsActivates(active: map<string, bool>, urls: seq<string>, maxRetries: int)
    requires maxRetries >= 1
    ensures forall u :: u in urls ==> IsActive(StartLoops(active, urls, maxRetries).active, u)
    decreases |urls|
  {
    if |urls| > 0 {
      var u := urls[0];
      var flags := if IsActive(active, u) then active else active[u := true];
      StartLoopsActivates(flags, urls[1..], maxRetries);
      StartLoopsKeepsActive(flags, urls[1..], maxRetries, u);
      assert forall v :: v in urls ==> v == u || v in urls[1..];
    }
  }

  /** A URL already active stays active while the other loops start. */
  lemma {:induction false} StartLoopsKeepsActive(active: map<string, bool>, urls: seq<string>, maxRetries: int, u: string)
    requires maxRetries >= 1 && IsActive(active, u)
    ensures IsActive(StartLoops(active, urls, maxRetries).active, u)
    decreases |urls|
  {
    if |urls| > 0 {
      var v := urls[0];
      var flags := if IsActive(active, v) then active else active[v := true];
      StartLoopsKeepsActive(flags, urls[1..], maxRetries, u);
    }
  }

  /**
   * With at least one retry, each URL not already being watched gets exactly
   * one loop, however often it is listed.
   */
  lemma {:induction false} StartLoopsOnePerUrl(active: map<string, bool>, urls: seq<string>, maxRetries: int)
    requires maxRetries >= 1
    ensures forall u :: u in urls && !IsActive(active, u) ==> u in StartLoops(active, urls, maxRetries).started
    ensures NoDuplicates(StartLoops(active, urls, maxRetries).started)
    decreases |urls|
  {
    if |urls| > 0 {
      var u := urls[0];
      if IsActive(active, u) {
        StartLoopsOnePerUrl(active, urls[1..], maxRetries);
        assert forall v :: v in urls && v != u ==> v in urls[1..];
      } else {
        var flags := active[u := true];
        StartLoopsOnePerUrl(flags, urls[1..], maxRetries);
        var rest := StartLoops(flags, urls[1..], maxRetries);
        assert u !in rest.started;
        assert forall v :: v in urls && v != u ==> v in urls[1..];
        assert forall v :: v in urls[1..] && !IsActive(active, v) && v != u ==> !IsActive(flags, v);
      }
    }
  }

  /**
   * With no retries every loop ends before its first await, so each listed
   * URL that was not active gets a loop per occurrence and none stays active.
   */
  lemma {:induction false} StartLoopsNoRetries(active: map<string, bool>, urls: seq<string>, maxRetries: int)
    requires maxRetries < 1
    ensures |StartLoops(active, urls, maxRetries).started| == |urls| - CountActive(active, urls)
    ensures forall u :: u in urls && !IsActive(active, u) ==> !IsActive(StartLoops(active, urls, maxRetries).active, u)
    decreases |urls|
  {
    if |urls| > 0 {
      var u := urls[0];
      if IsActive(active, u) {
        StartLoopsNoRetries(active, urls[1..], maxRetries);
        assert forall v :: v in urls && v != u ==> v in urls[1..];
      } else {
        var flags := active[u := false];
        StartLoopsNoRetries(flags, urls[1..], maxRetries);
        CountActiveCleared(active, urls[1..], u);
        StartLoopsKeepsInactive(flags, urls[1..], maxRetries, u);
        assert forall v :: v in urls && v != u ==> v in urls[1..];
      }
    }
  }

  lemma {:induction false} StartLoopsKeepsInactive(active: map<string, bool>, urls: seq<string>, maxRetries: int, u: string)
    requires maxRetries < 1 && !IsActive(active, u)
    ensures !IsActive(StartLoops(active, urls, maxRetries).active, u)
    decreases |urls|
  {
    if |urls| > 0 {
      var v := urls[0];
      var flags := if IsActive(active, v) then active else active[v := false];
      StartLoopsKeepsInactive(flags, urls[1..], maxRetries, u);
    }
  }

  lemma {:induction false} CountActiveCleared(active: map<string, bool>, urls: seq<string>, u: string)
    requires !IsActive(active, u)
    ensures CountActive(active[u := false], urls) == CountActive(active, urls)
    decreases |urls|
  {
    if |urls| > 0 {
      CountActiveCleared(active, urls[1..], u);
    }
  }

  /** How many entries of `urls` are flagged active in `active`. */
  function CountActive(active: map<string, bool>, urls: seq<string>): nat
  {
    if |urls| == 0 then 0
    else (if IsActive(active, urls[0]) then 1 else 0) + CountActive(active, urls[1..])
  }

  predicate IsAlnum(c: char)
  {
    ('a' <= c <= 'z') || ('A' <= c <= 'Z') || ('0' <= c <= '9')
  }

  /** `url.replace(/[^a-zA-Z0-9]/g, '_')`. */
  function Sanitize(url: string): (r: string)
    ensures |r| == |url|
    ensures forall i :: 0 <= i < |r| ==> IsAlnum(r[i]) || r[i] == '_'
    ensures forall i :: 0 <= i < |r| && IsAlnum(url[i]) ==> r[i] == url[i]
    ensures forall i :: 0 <= i < |r| && !IsAlnum(url[i]) ==> r[i] == '_'
    decreases |url|
  {
    if |url| == 0 then []
    else [if IsAlnum(url[0]) then url[0] else '_'] + Sanitize(url[1..])
  }

  /** The id of the status element a URL's reports are written into. */
  function StatusId(url: string): (r: string)
    ensures |r| == |url| + 7
    ensures r[..7] == "status-"
    ensures forall i :: 7 <= i < |r| ==> IsAlnum(r[i]) || r[i] == '_'
    ensures forall i :: 0 <= i < |url| && IsAlnum(url[i]) ==> r[i + 7] == url[i]
    ensures forall i :: 0 <= i < |url| && !IsAlnum(url[i]) ==> r[i + 7] == '_'
  {
    "status-" + Sanitize(url)
  }

  /** Sanitizing an id again changes nothing. */
  lemma {:induction false} SanitizeIdempotent(url: string)
    ensures Sanitize(Sanitize(url)) == Sanitize(url)
    decreases |url|
  {
    if |url| > 0 {
      SanitizeIdempotent(url[1..]);
      assert Sanitize(url)[1..] == Sanitize(url[1..]);
    }
  }
}

=== FILE: reconnect_fix.dfy ===
/**
 * The reconnect behaviour the client's comments and its backoff step aim
 * at: `reconnect()` cancels the pending timer but keeps the grown delay,
 * which only a successful open (or `disconnect()`) resets. Every other
 * transition is the one `Connection` defines.
 */
module ReconnectFix {
  import C = Connection
  import Backoff

  /** The delay after `n` schedulings since the last reset: 5000 * 1.5^n, capped at 30000. */
  function ExpectedDelay(n: nat): real
  {
    Backoff.Min(C.InitialReconnectDelay * Backoff.Pow(C.BackoffFactor, n), C.MaxReconnectDelay)
  }

  /** Cancels the pending timer without touching the delay. */
  function CancelTimer(c: C.Client): (r: C.Client)
    ensures r.timer.NoTimer? && r.(timer := c.timer) == c
  {
    c.(timer := C.NoTimer)
  }

  /** `reconnect()` with the delay reset left to a successful open. */
  function Reconnect(c: C.Client, constructs: bool): (r: C.Client)
    ensures r.serverUrl == c.serverUrl && r.isConnected == c.isConnected
    ensures constructs ==> && r.hasSocket && r.timer.NoTimer?
                           && r.reconnectDelay == c.reconnectDelay
                           && r.reconnectAttempts == c.reconnectAttempts
    ensures !constructs && c.reconnectAttempts < C.MaxReconnectAttempts ==>
              && r.timer == C.Armed(c.reconnectDelay)
              && r.reconnectAttempts == c.reconnectAttempts + 1
  {
    C.Connect(CancelTimer(c), constructs)
  }

  function UpdateServerUrl(c: C.Client, newUrl: string, constructs: bool): (r: C.Client)
    ensures newUrl == "" || newUrl == c.serverUrl ==> r == c
    ensures newUrl != "" && newUrl != c.serverUrl ==>
              r.serverUrl == newUrl
    ensures newUrl != "" && newUrl != c.serverUrl && constructs ==>
              r.reconnectDelay == c.reconnectDelay && r.reconnectAttempts == c.reconnectAttempts
  {
    if newUrl != "" && newUrl != c.serverUrl then Reconnect(c.(serverUrl := newUrl), constructs)
    else c
  }

  function Step(c: C.Client, e: C.Event): C.Client
  {
    match e
    case TimerFired(constructs) => if c.timer.Armed? then Reconnect(c, constructs) else c
    case Requested(req, env) =>
      if req.action == C.ReconnectAction then Reconnect(c, env.constructs)
      else if req.action == C.UpdateUrlAction then UpdateServerUrl(c, req.url, env.constructs)
      else C.HandleMessage(c, req, env).effect.client
    case _ => C.Step(c, e)
  }

  function Run(c: C.Client, es: seq<C.Event>): C.Client
    decreases |es|
  {
    if |es| == 0 then c else Run(Step(c, es[0]), es[1..])
  }

  /** The delay matches the attempt count, and a pending timer waits the delay of the attempt before. */
  predicate Tracks(c: C.Client)
  {
    && c.reconnectDelay == ExpectedDelay(c.reconnectAttempts)
    && (c.timer.Armed? ==> c.reconnectAttempts >= 1
                           && c.timer.delay == ExpectedDelay(c.reconnectAttempts - 1))
  }

  /** Growing a capped delay by 1.5 and capping again is one more power of 1.5. */
  lemma GrowthStep(n: nat)
    ensures Backoff.Min(ExpectedDelay(n) * C.BackoffFactor, C.MaxReconnectDelay) == ExpectedDelay(n + 1)
  {
    assert Backoff.Pow(C.BackoffFactor, n + 1) == C.BackoffFactor * Backoff.Pow(C.BackoffFactor, n);
  }

  lemma ScheduleTracks(c: C.Client)
    requires Tracks(c)
    ensures Tracks(C.ScheduleReconnect(c))
  {
    GrowthStep(c.reconnectAttempts);
  }

  lemma ReconnectTracks(c: C.Client, constructs: bool)
    requires Tracks(c)
    ensures Tracks(Reconnect(c, constructs))
  {
    ScheduleTracks(CancelTimer(c));
  }

  lemma RequestTracks(c: C.Client, req: C.Request, env: C.Env)
    requires Tracks(c)
    ensures Tracks(Step(c, C.Requested(req, env)))
  {
    if req.action == C.ReconnectAction {
      ReconnectTracks(c, env.constructs);
    } else if req.action == C.UpdateUrlAction {
      ReconnectTracks(c.(serverUrl := req.url), env.constructs);
    } else {
      C.RequestOutcome(c, req, env);
      var r := C.HandleMessage(c, req, env).effect.client;
      assert Step(c, C.Requested(req, env)) == r;
      assert r.reconnectDelay == c.reconnectDelay && r.reconnectAttempts == c.reconnectAttempts && r.timer == c.timer;
    }
  }

  lemma StepTracks(c: C.Client, e: C.Event)
    requires Tracks(c)
    ensures Tracks(Step(c, e))
  {
    match e
    case Closed(code) => ScheduleTracks(c.(isConnected := false));
    case SocketError => ScheduleTracks(c.(isConnected := false));
    case TimerFired(constructs) => ReconnectTracks(c, constructs);
    case Requested(req, env) => RequestTracks(c, req, env);
    case _ =>
  }

  lemma {:induction false} RunTracks(c: C.Client, es: seq<C.Event>)
    requires Tracks(c)
    ensures Tracks(Run(c, es))
    decreases |es|
  {
    if |es| > 0 {
      StepTracks(c, es[0]);
      RunTracks(Step(c, es[0]), es[1..]);
    }
  }

  /**
   * The intended backoff: whatever happened since start-up, a pending
   * timer after the k-th consecutive scheduling waits 5000 * 1.5^(k-1) ms,
   * capped at 30 seconds.
   */
  lemma {:induction false} ArmedDelayGrows(constructs: bool, es: seq<C.Event>)
    ensures var c := Run(C.Start(constructs), es);
            c.timer.Armed? ==> c.reconnectAttempts >= 1 && c.timer.delay == ExpectedDelay(c.reconnectAttempts - 1)
  {
    ScheduleTracks(C.Fresh);
    RunTracks(C.Start(constructs), es);
  }

  /** The delay grows from one failure to the next and never passes 30 seconds. */
  lemma {:induction false} ExpectedDelayBounds(i: nat, j: nat)
    requires i <= j
    ensures C.InitialReconnectDelay <= ExpectedDelay(i) <= ExpectedDelay(j) <= C.MaxReconnectDelay
  {
    Backoff.PowAtLeastOne(C.BackoffFactor, i);
    Backoff.PowMonotone(C.BackoffFactor, i, j);
  }

  /**
   * Two abnormal closes with a timer in between: the second timer waits
   * 7.5 seconds here and 5 seconds in the client as written.
   */
  lemma SecondWaitIsLonger()
    ensures Run(C.Start(true), [C.Closed(1006), C.TimerFired(true), C.Closed(1006)]).timer == C.Armed(7500.0)
    ensures C.Run(C.Start(true), [C.Closed(1006), C.TimerFired(true), C.Closed(1006)]).timer == C.Armed(5000.0)
  {
    var es := [C.Closed(1006), C.TimerFired(true), C.Closed(1006)];
    assert es[1..] == [C.TimerFired(true), C.Closed(1006)];
    assert es[1..][1..] == [C.Closed(1006)];
    assert es[1..][1..][1..] == [];
  }
}

=== FILE: text.dfy ===
/**
 * The string operations the popup uses on its text inputs: JavaScript's
 * `String.prototype.trim` and `split` on a one-character separator.
 * A character is a Unicode scalar value, not a UTF-16 code unit; see the
 * README's "Left out" section.
 */
module Text {

  /** ECMAScript WhiteSpace and LineTerminator code points, the set `trim` removes. */
  predicate IsJsWhitespace(c: char)
  {
    || c == '\t' || c == '\n' || c == '\U{B}' || c == '\U{C}' || c == '\r' || c == ' '
    || c == '\U{A0}' || c == '\U{1680}' || ('\U{2000}' <= c <= '\U{200A}')
    || c == '\U{2028}' || c == '\U{2029}' || c == '\U{202F}' || c == '\U{205F}'
    || c == '\U{3000}' || c == '\U{FEFF}'
  }

  predicate AllSpace(s: string)
  {
    forall i :: 0 <= i < |s| ==> IsJsWhitespace(s[i])
  }

  /** Neither the first nor the last character is whitespace. */
  predicate NoEdgeSpace(s: string)
  {
    s == [] || (!IsJsWhitespace(s[0]) && !IsJsWhitespace(s[|s| - 1]))
  }

  /** How many whitespace characters `s` starts with. */
  function LeadingSpace(s: string): (n: nat)
    ensures n <= |s|
    ensures forall i :: 0 <= i < n ==> IsJsWhitespace(s[i])
    ensures n < |s| ==> !IsJsWhitespace(s[n])
    decreases |s|
  {
    if |s| > 0 && IsJsWhitespace(s[0]) then 1 + LeadingSpace(s[1..]) else 0
  }

  /** How many whitespace characters `s` ends with. */
  function TrailingSpace(s: string): (n: nat)
    ensures n <= |s|
    ensures forall i :: |s| - n <= i < |s| ==> IsJsWhitespace(s[i])
    ensures n < |s| ==> !IsJsWhitespace(s[|s| - n - 1])
    decreases |s|
  {
    if |s| > 0 && IsJsWhitespace(s[|s| - 1]) then 1 + TrailingSpace(s[..|s| - 1]) else 0
  }

  /** `s.trim()`: `s` without its leading and trailing whitespace. */
  function Trim(s: string): (r: string)
    ensures NoEdgeSpace(r)
    ensures r == [] <==> AllSpace(s)
  {
    var a := LeadingSpace(s);
    var b := TrailingSpace(s[a..]);
    assert AllSpace(s) ==> a == |s|;
    assert a < |s| ==> a + b < |s| by {
      if a < |s| {
        assert s[a..][0] == s[a];
      }
    }
    s[a..|s| - b]
  }

  /** What `trim` removes is whitespace on either side of the text it keeps. */
  lemma TrimIsInfix(s: string)
    ensures var r := Trim(s);
            exists i :: 0 <= i <= |s| - |r| && r == s[i..i + |r|]
                        && AllSpace(s[..i]) && AllSpace(s[i + |r|..])
  {
    var a := LeadingSpace(s);
    var t := s[a..];
    var b := TrailingSpace(t);
    var r := Trim(s);
    assert r == s[a..a + |r|];
    assert AllSpace(s[..a]);
    var after := s[a + |r|..];
    assert AllSpace(after) by {
      forall i | 0 <= i < |after|
        ensures IsJsWhitespace(after[i])
      {
        assert after[i] == t[|t| - b + i];
      }
    }
  }

  lemma TrimKeepsTrimmed(s: string)
    requires NoEdgeSpace(s)
    ensures Trim(s) == s
  {
    if s != [] {
      assert LeadingSpace(s) == 0;
      assert s[0..] == s;
      assert TrailingSpace(s) == 0;
    }
  }

  /** Trimming twice is trimming once. */
  lemma TrimIdempotent(s: string)
    ensures Trim(Trim(s)) == Trim(s)
  {
    TrimKeepsTrimmed(Trim(s));
  }

  /** Number of characters of `s` that are in `cs`. */
  function CountIn(s: string, cs: set<char>): nat
  {
    if |s| == 0 then 0 else (if s[0] in cs then 1 else 0) + CountIn(s[1..], cs)
  }

  /**
   * `s.split(sep)` for a one-character separator: the pieces between
   * separators, an empty piece at either end when `s` starts or ends with one.
   */
  function Split(s: string, sep: char): (parts: seq<string>)
    ensures |parts| == CountIn(s, {sep}) + 1
    ensures forall i :: 0 <= i < |parts| ==> sep !in parts[i]
    decreases |s|
  {
    if |s| == 0 then [""]
    else
      var rest := Split(s[1..], sep);
      if s[0] == sep then [""] + rest else [[s[0]] + rest[0]] + rest[1..]
  }

  /** `parts.join(sep)`. */
  function Join(parts: seq<string>, sep: char): string
    requires |parts| >= 1
  {
    if |parts| == 1 then parts[0] else parts[0] + [sep] + Join(parts[1..], sep)
  }

  /** Splitting loses nothing: joining the pieces restores the text. */
  lemma {:induction false} JoinSplit(s: string, sep: char)
    ensures Join(Split(s, sep), sep) == s
    decreases |s|
  {
    if |s| > 0 {
      var rest := Split(s[1..], sep);
      JoinSplit(s[1..], sep);
      if s[0] == sep {
        assert ([""] + rest)[1..] == rest;
        assert s == [sep] + s[1..];
      } else {
        var parts := [[s[0]] + rest[0]] + rest[1..];
        if |rest| == 1 {
          assert s == [s[0]] + s[1..];
        } else {
          assert parts[1..] == rest[1..];
          assert Join(rest, sep) == rest[0] + [sep] + Join(rest[1..], sep);
          assert s == [s[0]] + s[1..];
        }
      }
    }
  }

  /** Splitting text that starts with a separator-free piece glues that piece onto the first part. */
  lemma {:induction false} SplitPrefix(a: string, t: string, sep: char)
    requires sep !in a
    ensures Split(a + t, sep) == [a + Split(t, sep)[0]] + Split(t, sep)[1..]
    decreases |a|
  {
    if |a| > 0 {
      SplitPrefix(a[1..], t, sep);
      assert (a + t)[1..] == a[1..] + t;
      assert [a[0]] + (a[1..] + Split(t, sep)[0]) == a + Split(t, sep)[0];
    } else {
      var parts := Split(t, sep);
      assert a + t == t && a + parts[0] == parts[0];
      assert parts == [parts[0]] + parts[1..];
    }
  }

  /** Joining pieces that do not contain the separator, then splitting, gives the pieces back. */
  lemma {:induction false} SplitJoin(parts: seq<string>, sep: char)
    requires |parts| >= 1
    requires forall i :: 0 <= i < |parts| ==> sep !in parts[i]
    ensures Split(Join(parts, sep), sep) == parts
    decreases |parts|
  {
    if |parts| == 1 {
      SplitPrefix(parts[0], [], sep);
      assert parts[0] + [] == parts[0];
    } else {
      var tail := Join(parts[1..], sep);
      SplitJoin(parts[1..], sep);
      assert Join(parts, sep) == parts[0] + ([sep] + tail);
      SplitPrefix(parts[0], [sep] + tail, sep);
      assert ([sep] + tail)[1..] == tail;
      assert Split([sep] + tail, sep) == [""] + parts[1..];
      assert parts[0] + "" == parts[0];
      assert parts == [parts[0]] + parts[1..];
    }
  }

  /** The joined text begins with the first piece's first character and ends with the last piece's last. */
  lemma {:induction false} JoinEdges(parts: seq<string>, sep: char)
    requires |parts| >= 1
    requires forall i :: 0 <= i < |parts| ==> parts[i] != []
    ensures var j := Join(parts, sep);
            j != [] && j[0] == parts[0][0] && j[|j| - 1] == parts[|parts| - 1][|parts[|parts| - 1]| - 1]
    decreases |parts|
  {
    if |parts| > 1 {
      JoinEdges(parts[1..], sep);
    }
  }

  /** Trimming only removes characters: whatever is in the result was in the text. */
  lemma TrimSubset(s: string, ch: char)
    requires ch in Trim(s)
    ensures ch in s
  {
    var a := LeadingSpace(s);
    var r := Trim(s);
    var k :| 0 <= k < |r| && r[k] == ch;
    assert s[a + k] == ch;
  }
}

=== FILE: wrappers.dfy ===
/** The optional value used wherever the source has `undefined` or `null`. */
module Wrappers {

  datatype Option<+T> = None | Some(value: T)
}
